=== FILE: README.md ===
# Tic-tac-toe lobby server: accounts, message dispatch and session state

A Dafny model of the account and login core of a small Unity lobby server.

- `AccountManager` keeps an in-memory list of `(username, password)` records.
  It creates accounts under unique usernames and validates logins. It
  persists the list as `username;password` lines.
- `NetworkServer` reads length-prefixed frames from client connections and
  splits each message on `,`. The first token is a command identifier
  (`CreateAccount` = 1, `Login` = 2). The server answers with one of the
  signifiers `LoginComplete` = 1, `LoginFailed` = 2, `AccountCreated` = 3 or
  `AccountCreationFailed` = 4, sent to every created connection. It prunes
  dropped connections from its list with swap-back removal.
- `StateManager` holds one of three states behind unguarded setters.

Files, one module each (the signifier file holds two):

| file | module | models |
|---|---|---|
| `wrappers.dfy` | `Wrappers` | `Option` |
| `text.dfy` | `Text` | `String.Split(char)` and joining tokens |
| `numbers.dfy` | `Numbers` | `int.TryParse` and `int.ToString` |
| `accounts.dfy` | `Accounts` | `AccountManager.CreateAccount` / `ValidateLogin` |
| `account_file.dfy` | `AccountFile` | the save / load line format of `AccountManager` |
| `framing.dfy` | `Framing` | the `int` length + payload frame |
| `connections.dfy` | `Connections` | connection list: accept, disconnect, prune |
| `signifiers.dfy` | `ClientServerSignifiers`, `ServerClientSignifiers` | the constants |
| `dispatch.dfy` | `Dispatch` | `ProcessReceivedMsg`, `HandleLogin`, `CheckUserCredentials` |
| `states.dfy` | `States` | `StateManager` |

Everything is a pure function over immutable values, except three methods.
`Connections.Prune` is the swap-back loop, written over a sequence.
`Connections.PruneNumbered` runs that loop on the corrected registry (see
Findings). `Dispatch.CheckUserCredentials` is the early-return credential
loop.
The server's record list, its connection list and the account file are
explicit inputs and outputs. The replies a message causes are returned as a
list of `(connection, text)` pairs.

Behaviour that the model keeps on purpose, as the code has it:

- A create or login message with exactly two tokens passes the
  "at least two tokens" guard. Its branch then reads a third token that does
  not exist. `Dispatch.Decode` gives this the outcome `IndexOutOfRange`.
  The message then has no effect on the records and sends no reply.
- In the fresh-username branch, `NetworkServer` appends the new record once
  per created connection. It also sends `AccountCreated` to each of them.
  With two clients connected the record is stored twice
  (`Dispatch.CreateStoresOneCopyPerConnection`). With none connected it
  would not be stored at all
  (`Dispatch.CreateWithoutConnectionsStoresNothing`). The server's tick
  hands a message to `ProcessReceivedMsg` only for a data event of a
  created connection, so the sender is always connected and this case does
  not arise from the tick. It is a property of the handler taken alone.
- Replies go to every created connection, not only to the sender.
- Identifiers other than 1 and 2 are ignored silently.
- Tokens after the third are ignored (`Dispatch.ExtraTokensIgnored`).
- `ValidateLogin` looks only at the first record with the username.
  `HandleLogin` and `CheckUserCredentials` accept any matching record.
  The two decisions agree whenever usernames are distinct.
- Passwords are stored and compared as plain text.
- `StateManager`'s setters are unguarded: each one reaches its state from
  any state.
- Player ids can repeat after a connection is pruned (see Findings).
- The command identifier is read with `int.TryParse`, so `+1`, ` 01` and
  `1 ` all name `CreateAccount`.

Byte order: the transport's `WriteInt` / `ReadInt` are modelled as
little-endian two's complement.

## Model

| member | source | states |
|---|---|---|
| `Accounts.FindIndex` | 3110_SG_TicTacToeServer/Assets/Scripts/Managers/AccountManager.cs:46 | finds the first record with the username, and none exactly when no record has it |
| `Accounts.CreateAccount` | 3110_SG_TicTacToeServer/Assets/Scripts/Managers/AccountManager.cs:30-41 | succeeds iff the username is not stored; a failure leaves the list unchanged; a success appends exactly `(u, p)` at the end and keeps every earlier record; distinct usernames stay distinct |
| `Accounts.ValidateLogin` | 3110_SG_TicTacToeServer/Assets/Scripts/Managers/AccountManager.cs:44-53 | true iff the first record with the username holds the password, so false for an absent username; with distinct usernames, true iff some record holds both |
| `Accounts.ValidateAfterCreate` | 3110_SG_TicTacToeServer/Assets/Scripts/Managers/AccountManager.cs:37-52 | after a successful create of `(u, p)`, `(u, p)` validates and `(u, q)` does not for any `q ≠ p` |
| `Accounts.CreateTwice` | 3110_SG_TicTacToeServer/Assets/Scripts/Managers/AccountManager.cs:30-41 | a fresh username can be created once; a second create under it fails and changes nothing |
| `Accounts.UsernamesAreCaseSensitive` | 3110_SG_TicTacToeServer/Assets/Scripts/Managers/AccountManager.cs:32-47 | an example: with "Alice" stored, creating "alice" succeeds and "alice" does not validate with Alice's password (the general fact follows from the exact comparisons in `CreateAccount` and `ValidateLogin`) |
| `Accounts.ValidateLoginSeesFirstRecordOnly` | 3110_SG_TicTacToeServer/Assets/Scripts/Managers/AccountManager.cs:46-47 | with duplicate usernames, a stored password can fail to validate because only the first record is compared |
| `AccountFile.FormatAccounts` | 3110_SG_TicTacToeServer/Assets/Scripts/Managers/AccountManager.cs:60-63 | one saved line per record, in list order, each `username;password` |
| `AccountFile.ParseLine` | 3110_SG_TicTacToeServer/Assets/Scripts/Managers/AccountManager.cs:81-85 | a line yields a record iff it holds exactly one `;` (two fields); the record formats back to the line; a line without breaks yields a storable record |
| `AccountFile.LoadAccounts` | 3110_SG_TicTacToeServer/Assets/Scripts/Managers/AccountManager.cs:79-86 | at most one record per line; lines without breaks load only storable records |
| `AccountFile.Load` | 3110_SG_TicTacToeServer/Assets/Scripts/Managers/AccountManager.cs:76-87 | every record loaded from a file is storable |
| `AccountFile.LoadSkipsMalformedLine` | 3110_SG_TicTacToeServer/Assets/Scripts/Managers/AccountManager.cs:81-82 | a line without exactly one `;` is skipped |
| `AccountFile.LoadKeepsWellFormedLine` | 3110_SG_TicTacToeServer/Assets/Scripts/Managers/AccountManager.cs:81-85 | a line with exactly one `;` contributes the record it formats, in place |
| `AccountFile.SaveText` | 3110_SG_TicTacToeServer/Assets/Scripts/Managers/AccountManager.cs:54-70 | when every record is storable, the file's lines are exactly the records' `username;password` lines, in order |
| `AccountFile.ReadAllLines` | 3110_SG_TicTacToeServer/Assets/Scripts/Managers/AccountManager.cs:78 | no line read from a file holds a line break |
| `AccountFile.ReadWriteLines` | 3110_SG_TicTacToeServer/Assets/Scripts/Managers/AccountManager.cs:58-78 | lines written with `WriteLine` (LF or CRLF) and read with `ReadAllLines` come back unchanged, if none holds a break |
| `AccountFile.ParseFormatLine` | 3110_SG_TicTacToeServer/Assets/Scripts/Managers/AccountManager.cs:62-84 | a saved line parses back to its record when no field holds `;` |
| `AccountFile.LoadFormatAccounts` | 3110_SG_TicTacToeServer/Assets/Scripts/Managers/AccountManager.cs:60-85 | parsing the saved lines recovers the list |
| `AccountFile.LoadSaveRoundTrip` | 3110_SG_TicTacToeServer/Assets/Scripts/Managers/AccountManager.cs:54-93 | saving then loading returns the same list, in order, when no field holds `;` or a line break |
| `AccountFile.ReloadAfterCreate` | 3110_SG_TicTacToeServer/Assets/Scripts/Managers/AccountManager.cs:37-63 | the file rewritten after a successful create reloads as the old list plus the new record |
| `Text.Split` | 3110_SG_TicTacToeServer/Assets/Scripts/Managers/NetworkServer.cs:171 | a string with k separators splits into k + 1 tokens, none holding the separator |
| `Text.SplitJoin` | 3110_SG_TicTacToeServer/Assets/Scripts/Managers/NetworkServer.cs:171 | splitting joined tokens recovers them when none holds the separator |
| `Text.JoinSplit` | 3110_SG_TicTacToeServer/Assets/Scripts/Managers/NetworkServer.cs:171 | joining the tokens of a split gives back the string |
| `Numbers.ShowNat` | 3110_SG_TicTacToeServer/Assets/Scripts/Managers/NetworkServer.cs:212 | at least one decimal digit, read back as the number, with no leading zero unless the number is 0 (the shortest form) |
| `Numbers.ShowInt` | 3110_SG_TicTacToeServer/Assets/Scripts/Managers/NetworkServer.cs:224 | a non-negative number renders as its shortest digits; a negative one as `-` followed by the shortest digits of its magnitude, which start with a non-zero digit |
| `Numbers.TryParse` | 3110_SG_TicTacToeServer/Assets/Scripts/Managers/NetworkServer.cs:182 | a successful parse is a value a C# `int` can hold |
| `Numbers.TryParseIntegerText` | 3110_SG_TicTacToeServer/Assets/Scripts/Managers/NetworkServer.cs:182 | white space, an optional `+` or `-`, one or more digits and white space parse to the signed value when it fits in an `int`, and fail when it does not |
| `Numbers.TryParseOnlyIntegerText` | 3110_SG_TicTacToeServer/Assets/Scripts/Managers/NetworkServer.cs:182 | any text that parses is such an integer text, and its result is that text's signed value |
| `Numbers.TryParseNeedsDigit` | 3110_SG_TicTacToeServer/Assets/Scripts/Managers/NetworkServer.cs:182 | text without a decimal digit never parses |
| `Numbers.TryParseShowInt` | 3110_SG_TicTacToeServer/Assets/Scripts/Managers/NetworkServer.cs:182 | parsing the decimal rendering of any `int` gives it back |
| `Framing.ReadWriteInt` | 3110_SG_TicTacToeServer/Assets/Scripts/Managers/NetworkServer.cs:285 | the four bytes written for an `int` read back as that `int` |
| `Framing.WriteReadInt` | 3110_SG_TicTacToeServer/Assets/Scripts/Managers/NetworkServer.cs:126 | every four bytes are the encoding of the `int` they read as |
| `Framing.WriteFrame` | 3110_SG_TicTacToeServer/Assets/Scripts/Managers/NetworkServer.cs:277-287 | the frame is 4 length bytes announcing the payload length, then the payload |
| `Framing.ReadFrame` | 3110_SG_TicTacToeServer/Assets/Scripts/Managers/NetworkServer.cs:126-129 | yields a payload iff the announced length is non-negative and available, and the payload is the announced bytes |
| `Framing.ReadWriteFrame` | 3110_SG_TicTacToeServer/Assets/Scripts/Managers/NetworkServer.cs:126-130 | reading a frame recovers exactly the payload that was framed, whatever follows it |
| `Connections.RemoveAtSwapBack` | 3110_SG_TicTacToeServer/Assets/Scripts/Managers/NetworkServer.cs:97 | the list shrinks by one, loses one occurrence of the removed element, and keeps every other slot |
| `Connections.Prune` | 3110_SG_TicTacToeServer/Assets/Scripts/Managers/NetworkServer.cs:93-100 | afterwards no connection is not-created, and every created connection occurs as often as before |
| `Connections.MarkDisconnected` | 3110_SG_TicTacToeServer/Assets/Scripts/Managers/NetworkServer.cs:134-137 | the disconnected slot is not created; every other slot is kept |
| `Connections.DisconnectThenPrune` | 3110_SG_TicTacToeServer/Assets/Scripts/Managers/NetworkServer.cs:93-137 | a disconnect followed by a prune removes exactly one occurrence of that connection and keeps all other created ones |
| `Connections.AcceptIncomingConnection` | 3110_SG_TicTacToeServer/Assets/Scripts/Managers/NetworkServer.cs:146-158 | a default handle changes nothing; otherwise the connection is appended, its id is the list length after the append, exactly that one key is added to the id map, and other ids are kept |
| `Connections.PlayerIdReusedAfterPrune` | 3110_SG_TicTacToeServer/Assets/Scripts/Managers/NetworkServer.cs:152-155 | accept, accept, disconnect the first, prune, accept: two live connections hold id 2 |
| `Connections.AcceptNumbered` | 3110_SG_TicTacToeServer/Assets/Scripts/Managers/NetworkServer.cs:152-155 | the new connection gets the counter's value as its id and the counter goes up by one; exactly that key is added; the new id differs from every other id, and ids stay unique |
| `Connections.PruneNumbered` | 3110_SG_TicTacToeServer/Assets/Scripts/Managers/NetworkServer.cs:93-100 | pruning keeps the ids and the counter, so ids stay unique |
| `Connections.NumberedIdsNotReused` | 3110_SG_TicTacToeServer/Assets/Scripts/Managers/NetworkServer.cs:152-155 | in the reuse scenario the counter gives the third connection id 3 |
| `Dispatch.Live` | 3110_SG_TicTacToeServer/Assets/Scripts/Managers/NetworkServer.cs:208-211 | keeps exactly the created connections of the list (membership; counts and order in the next two rows) |
| `Dispatch.LiveCounts` | 3110_SG_TicTacToeServer/Assets/Scripts/Managers/NetworkServer.cs:208-211 | each created connection occurs in the filtered list as often as in the list; others do not occur |
| `Dispatch.LiveConcat` | 3110_SG_TicTacToeServer/Assets/Scripts/Managers/NetworkServer.cs:208-211 | filtering a concatenation is concatenating the filtered parts, so list order is kept |
| `Dispatch.Broadcast` | 3110_SG_TicTacToeServer/Assets/Scripts/Managers/NetworkServer.cs:371-379 | one reply per created connection, in the order of the filtered list (`Dispatch.LiveConcat`), each carrying the message |
| `Dispatch.Decode` | 3110_SG_TicTacToeServer/Assets/Scripts/Managers/NetworkServer.cs:169-239 | dropped for too few tokens iff the message has no `,`; dropped for the identifier iff the first token does not parse; a create (login) command iff there are at least three tokens and the first parses as 1 (2), with the second and third tokens as its fields; `IndexOutOfRange` iff exactly two tokens and the identifier is 1 or 2; `Unhandled` iff the identifier parses to anything else, carrying the parsed value |
| `Dispatch.ScanUsernameUsed` | 3110_SG_TicTacToeServer/Assets/Scripts/Managers/NetworkServer.cs:195-204 | the flag ends up raised iff some record has the username |
| `Dispatch.SaveForEachLive` | 3110_SG_TicTacToeServer/Assets/Scripts/Managers/NetworkServer.cs:217-228 | appends one copy of the record per created connection and sends `AccountCreated` to each |
| `Dispatch.HandleCreateAccount` | 3110_SG_TicTacToeServer/Assets/Scripts/Managers/NetworkServer.cs:191-229 | a stored username adds nothing and sends `AccountCreationFailed` to every created connection; a fresh one appends `(u, p)` once per created connection and sends `AccountCreated` to each |
| `Dispatch.LoginScan` | 3110_SG_TicTacToeServer/Assets/Scripts/Managers/NetworkServer.cs:358-367 | the login decision is true iff some record matches both username and password |
| `Dispatch.CheckUserCredentials` | 3110_SG_TicTacToeServer/Assets/Scripts/Managers/NetworkServer.cs:340-350 | true iff some record matches both fields, the same decision `HandleLogin` makes |
| `Dispatch.HandleLogin` | 3110_SG_TicTacToeServer/Assets/Scripts/Managers/NetworkServer.cs:356-394 | records unchanged; `LoginComplete` to every created connection when a record matches, `LoginFailed` to each otherwise |
| `Dispatch.ProcessReceivedMsg` | 3110_SG_TicTacToeServer/Assets/Scripts/Managers/NetworkServer.cs:169-273 | records only grow at the end; replies go to created connections; a message without `,`, with an unparsable identifier, with a missing third token or with another identifier has no effect; a decoded create request for a fresh username appends one copy of the decoded record per created connection and sends `AccountCreated` to each, and for a taken username changes nothing and sends `AccountCreationFailed` to each; a decoded login request changes nothing and sends `LoginComplete` or `LoginFailed` to each according to whether some record holds the decoded fields |
| `Dispatch.DecodeRequest` | 3110_SG_TicTacToeServer/Assets/Scripts/Managers/NetworkServer.cs:169-239 | for any comma-free first token and comma-free arguments, the joined message decodes to the command `int.TryParse` of that token names, with the first two arguments as fields; with `Text.JoinSplit` this covers every message holding a `,` |
| `Dispatch.DecodeThreeTokens` | 3110_SG_TicTacToeServer/Assets/Scripts/Managers/NetworkServer.cs:171-236 | a message of three comma-free tokens whose first parses as 1 or 2 is a create or login command for the other two |
| `Dispatch.NonCanonicalIdentifiers` | 3110_SG_TicTacToeServer/Assets/Scripts/Managers/NetworkServer.cs:182-236 | any integer text with value 1 or 2 (padded with white space, signed or with leading zeros) before two comma-free fields makes a create or login command |
| `Dispatch.PlusSignedIdentifier` | 3110_SG_TicTacToeServer/Assets/Scripts/Managers/NetworkServer.cs:182-191 | `+1,u,p` is an account-creation request for `u` and `p` |
| `Dispatch.DecodeFormatRequest` | 3110_SG_TicTacToeServer/Assets/Scripts/Managers/NetworkServer.cs:171-236 | an identifier and comma-free arguments joined by `,` decode to the command they name |
| `Dispatch.DecodeJoin` | 3110_SG_TicTacToeServer/Assets/Scripts/Managers/NetworkServer.cs:171-236 | a message of comma-free tokens decodes as its tokens do |
| `Dispatch.DecodeTokensFirstThree` | 3110_SG_TicTacToeServer/Assets/Scripts/Managers/NetworkServer.cs:182-236 | the branch depends on the first three tokens only, once there are three |
| `Dispatch.DecodeIgnoresExtraTokens` | 3110_SG_TicTacToeServer/Assets/Scripts/Managers/NetworkServer.cs:171-236 | a message of three or more comma-free tokens decodes as the message of its first three |
| `Dispatch.ExtraTokensIgnored` | 3110_SG_TicTacToeServer/Assets/Scripts/Managers/NetworkServer.cs:169-239 | a message of three or more comma-free tokens has exactly the effect of the message of its first three tokens (`1,u,p,x` acts as `1,u,p`) |
| `Dispatch.CanonicalRequest` | 3110_SG_TicTacToeServer/Assets/Scripts/Managers/NetworkServer.cs:182-236 | the decimal identifier `1` or `2` before comma-free arguments forms a request message for that identifier |
| `Dispatch.CreateFreshMessage` | 3110_SG_TicTacToeServer/Assets/Scripts/Managers/NetworkServer.cs:182-227 | any create message (identifier text reading as 1, two or more comma-free arguments) for a fresh username appends one record per created connection and acknowledges to each |
| `Dispatch.CreateTakenMessage` | 3110_SG_TicTacToeServer/Assets/Scripts/Managers/NetworkServer.cs:195-215 | any create message for a stored username changes nothing and reports failure to every created connection |
| `Dispatch.LoginMessage` | 3110_SG_TicTacToeServer/Assets/Scripts/Managers/NetworkServer.cs:233-239 | any login message (identifier text reading as 2, two or more comma-free arguments) changes nothing and reports the credential decision to every created connection |
| `Dispatch.RecordsAfterCreate` | 3110_SG_TicTacToeServer/Assets/Scripts/Managers/NetworkServer.cs:217-223 | after the appends, the username is taken and `(u, p)` matches iff a copy was appended; `(u, q)` never matches |
| `Dispatch.CreateThenLogin` | 3110_SG_TicTacToeServer/Assets/Scripts/Managers/NetworkServer.cs:169-239 | create succeeds, a second create fails, the right password logs in, a wrong one does not |
| `Dispatch.CreateStoresOneCopyPerConnection` | 3110_SG_TicTacToeServer/Assets/Scripts/Managers/NetworkServer.cs:219-227 | with two created connections the new record is stored twice and usernames stop being distinct |
| `Dispatch.CreateWithoutConnectionsStoresNothing` | 3110_SG_TicTacToeServer/Assets/Scripts/Managers/NetworkServer.cs:219-227 | with no created connection a fresh account is neither stored nor acknowledged |
| `States.Ordinal` | 3110_SG_TicTacToeServer/Assets/Scripts/Managers/StateManager.cs:8-13 | every state has one of the values 0, 1, 2 |
| `States.FromOrdinal` | 3110_SG_TicTacToeServer/Assets/Scripts/Managers/StateManager.cs:8-13 | each of 0, 1, 2 names a state with that value |
| `States.OrdinalBijection` | 3110_SG_TicTacToeServer/Assets/Scripts/Managers/StateManager.cs:8-13 | the three states and the values 0, 1, 2 are in one-to-one correspondence |
| `States.GetState` | 3110_SG_TicTacToeServer/Assets/Scripts/Managers/StateManager.cs:23-26 | returns the held state, which is all a manager holds |
| `States.New` | 3110_SG_TicTacToeServer/Assets/Scripts/Managers/StateManager.cs:18-21 | a fresh manager is in `WaitingForLogin` |
| `States.SetStateAccountCreation` | 3110_SG_TicTacToeServer/Assets/Scripts/Managers/StateManager.cs:28-31 | reaches `AccountCreation` from any state |
| `States.SetStateLoggedIn` | 3110_SG_TicTacToeServer/Assets/Scripts/Managers/StateManager.cs:33-36 | reaches `LoggedIn` from any state |
| `States.SetStateWaitingForLogin` | 3110_SG_TicTacToeServer/Assets/Scripts/Managers/StateManager.cs:38-41 | reaches `WaitingForLogin` from any state |
| `States.SetterReachesTarget` | 3110_SG_TicTacToeServer/Assets/Scripts/Managers/StateManager.cs:28-41 | every setter reaches its named state from every state; no guard |
| `States.SetterIdempotent` | 3110_SG_TicTacToeServer/Assets/Scripts/Managers/StateManager.cs:28-41 | calling a setter twice equals calling it once |
| `States.RunLastWins` | 3110_SG_TicTacToeServer/Assets/Scripts/Managers/StateManager.cs:23-41 | after any sequence of setter calls the state is the last call's, or the prior state if there were none |
| `States.GetStateAfterCalls` | 3110_SG_TicTacToeServer/Assets/Scripts/Managers/StateManager.cs:18-41 | from construction, `GetState` is `WaitingForLogin` until a setter is called, then the most recent setter's state |

## Left out

- Unity transport and lifecycle: driver creation, pipelines, bind and
  listen, `ScheduleUpdate`, popping events, native list allocation and
  disposal. Connections are values with an `IsCreated` flag. The tick that
  feeds frames to `ProcessReceivedMsg` is not modelled as a whole; its
  pieces are (frame reading, disconnect marking, pruning, accepting).
- The text encoding of frame payloads (`Encoding.Unicode`, UTF-16LE).
  Frames are modelled over bytes and messages over strings.
- All file I/O: existence checks, readers, writers and the `IOException`
  handlers. Only the line format of `AccountManager` is modelled.
- `NetworkServer`'s own save and load (`SaveNewPlayer`, `LoadPlayer`,
  NetworkServer.cs:315-338). In the model `SaveNewPlayer` is the append to
  the record list; the file is not modelled. Its format is broken in the
  code: `SaveNewPlayer` writes `user:pass` lines (line 320), which hold no
  `,` because message fields never do. On the next start, `LoadPlayer`
  splits each line on `,` and reads `charParse[1]` (line 335), which throws.
  `Start` calls `LoadPlayer` at line 64, so the exception skips line 67 and
  `connectionToPlayerId` stays null. Every later `AcceptIncomingConnection`
  that finds a pending connection then throws at line 155, after the
  connection was added at line 152. That tick ends there, skipping its
  pruning and event handling. The connection stays in the list without an
  id and is served in later ticks. The throw at line 335 comes on the first
  line of the file, so after a restart no saved account is in memory and a
  saved username can be created again. None of this is modelled.
- `Connections.AcceptIncomingConnection`: models a server whose `Start`
  completed, so the id map exists; the failure above after a restart with
  saved accounts is not modelled.
- The exception raised for a missing third token is modelled only as "no
  effect". Its effect on the rest of the tick's events is not modelled.
- `Framing.ReadFrame`: a short stream or a negative length is modelled as
  "no payload". The transport reader's own failure behaviour (error count,
  zero-filled buffer, exception from a negative array size) is not modelled.
- `Numbers.TryParse`: culture-specific sign symbols and trailing NUL
  characters accepted by some runtimes are not modelled. The sign is ASCII
  `+` or `-`.
- The commented-out join-queue and make-move handling; `Debug.Log` output;
  the unused `connectionToPlayerId` of `AccountManager`; the unused
  `currentState` and `roomName` of `NetworkServer`.
- `LoginManager.cs`, which is user interface. It also calls server methods
  that `NetworkServer.cs` does not define.
- Configuration constants: the port passed to `Bind` (9001) and the
  connection list's initial capacity (1000, NetworkServer.cs:54; the list
  grows on `Add`, so it is not a maximum). Neither affects the modelled
  behaviour.

## Findings

| source | as written | input that shows it | evidently intended | confidence | as-written member | corrected member |
|---|---|---|---|---|---|---|
| 3110_SG_TicTacToeServer/Assets/Scripts/Managers/NetworkServer.cs:152-155 | a new connection's player id is the connection-list length after the add | accept `a` (id 1), accept `b` (id 2), disconnect `a`, prune, accept `c`: `c` gets id 2, which `b` still holds | ids handed out by a counter that only grows, so no two connections share one | medium, not executed | `Connections.PlayerIdReusedAfterPrune` | `Connections.AcceptNumbered` |

=== FILE: account_file.dfy ===
/** The text format `AccountManager` persists its list in: one record per
    line, `username;password`, the whole file rewritten after each successful
    creation and read back line by line on start-up. The file system itself
    is not modelled; a file is its text. */
module AccountFile {
  import opened Wrappers
  import opened Text
  import opened Accounts

  /** The line terminator `WriteLine` appends (the platform's `NewLine`). */
  datatype NewLine = LF | CRLF

  function Terminator(nl: NewLine): string {
    match nl
    case LF => "\n"
    case CRLF => "\r\n"
  }

  predicate IsBreak(c: char) {
    c == '\n' || c == '\r'
  }

  predicate NoBreak(s: string) {
    forall k :: 0 <= k < |s| ==> !IsBreak(s[k])
  }

  /** A record can be written and read back unchanged: neither field holds
      the field separator or a line break. */
  predicate Storable(a: Account) {
    ';' !in a.username && ';' !in a.password && NoBreak(a.username) && NoBreak(a.password)
  }

  /** One saved line. */
  function FormatLine(a: Account): string {
    a.username + ";" + a.password
  }

  /** The saved lines, one per record, in list order. */
  function FormatAccounts(accounts: seq<Account>): (lines: seq<string>)
    ensures |lines| == |accounts|
    ensures forall k :: 0 <= k < |accounts| ==> lines[k] == FormatLine(accounts[k])
  {
    seq(|accounts|, k requires 0 <= k < |accounts| => FormatLine(accounts[k]))
  }

  /** What a `StreamWriter` holds after `WriteLine` of each line in turn. */
  function WriteLines(lines: seq<string>, nl: NewLine): string
    decreases |lines|
  {
    if |lines| == 0 then "" else lines[0] + Terminator(nl) + WriteLines(lines[1..], nl)
  }

  /** `SaveAccountsToFile`: the full file text for the current list. When
      every record is storable, the file's lines are the records' lines. */
  function SaveText(accounts: seq<Account>, nl: NewLine): (text: string)
    ensures AllStorable(accounts) ==> ReadAllLines(text) == FormatAccounts(accounts)
  {
    var text := WriteLines(FormatAccounts(accounts), nl);
    assert AllStorable(accounts) ==> ReadAllLines(text) == FormatAccounts(accounts) by {
      if AllStorable(accounts) {
        ReadWriteLines(FormatAccounts(accounts), nl);
      }
    }
    text
  }

  /** Index of the first line break in `s`, or `|s|`. */
  function LineEnd(s: string): (i: nat)
    ensures i <= |s|
    ensures NoBreak(s[..i])
    ensures i < |s| ==> IsBreak(s[i])
    decreases |s|
  {
    if |s| == 0 || IsBreak(s[0]) then 0
    else
      var j := LineEnd(s[1..]);
      assert s[..1 + j] == [s[0]] + s[1..][..j];
      1 + j
  }

  /** `File.ReadAllLines`: lines end at `\n`, `\r` or `\r\n`; a final
      terminator does not start another line, and empty text has no lines. */
  function ReadAllLines(text: string): (lines: seq<string>)
    ensures forall k :: 0 <= k < |lines| ==> NoBreak(lines[k])
    decreases |text|
  {
    if |text| == 0 then []
    else
      var i := LineEnd(text);
      if i == |text| then [text]
      else if text[i] == '\r' && i + 1 < |text| && text[i + 1] == '\n' then
        [text[..i]] + ReadAllLines(text[i + 2..])
      else
        [text[..i]] + ReadAllLines(text[i + 1..])
  }

  /** A record whose line holds no break has fields without breaks. */
  lemma FieldsOfUnbrokenLine(a: Account)
    requires NoBreak(FormatLine(a))
    ensures NoBreak(a.username) && NoBreak(a.password)
  {
    var line := FormatLine(a);
    assert forall k :: 0 <= k < |a.username| ==> a.username[k] == line[k];
    assert forall k :: 0 <= k < |a.password| ==> a.password[k] == line[|a.username| + 1 + k];
  }

  /** One loaded line: a record exactly when splitting on `;` yields two
      fields, that is, when the line holds exactly one `;`. */
  function ParseLine(line: string): (r: Option<Account>)
    ensures r.Some? <==> multiset(line)[';'] == 1
    ensures r.Some? ==> FormatLine(r.value) == line
    ensures r.Some? ==> ';' !in r.value.username && ';' !in r.value.password
    ensures r.Some? && NoBreak(line) ==> Storable(r.value)
  {
    var fields := Split(line, ';');
    if |fields| == 2 then
      JoinSplit(line, ';');
      assert fields == [fields[0]] + fields[1..];
      var a := Account(fields[0], fields[1]);
      assert NoBreak(line) ==> Storable(a) by {
        if NoBreak(line) {
          FieldsOfUnbrokenLine(a);
        }
      }
      Some(a)
    else
      None
  }

  /** Every line is free of breaks. */
  predicate AllUnbroken(lines: seq<string>) {
    forall k :: 0 <= k < |lines| ==> NoBreak(lines[k])
  }

  /** Every record is storable. */
  predicate AllStorable(accounts: seq<Account>) {
    forall k :: 0 <= k < |accounts| ==> Storable(accounts[k])
  }

  /** `LoadAccountsFromFile` over the lines read: every well-formed line
      becomes a record, in file order; every other line is skipped. */
  function LoadAccounts(lines: seq<string>): (accounts: seq<Account>)
    ensures |accounts| <= |lines|
    ensures AllUnbroken(lines) ==> AllStorable(accounts)
    decreases |lines|
  {
    if |lines| == 0 then []
    else
      var rest := LoadAccounts(lines[1..]);
      assert AllUnbroken(lines) ==> AllUnbroken(lines[1..]);
      match ParseLine(lines[0])
      case Some(a) => [a] + rest
      case None => rest
  }

  /** Loading a whole file: every record loaded is storable. */
  function Load(text: string): (accounts: seq<Account>)
    ensures AllStorable(accounts)
  {
    LoadAccounts(ReadAllLines(text))
  }

  /** A line without exactly one `;` contributes nothing. */
  lemma LoadSkipsMalformedLine(line: string, rest: seq<string>)
    requires multiset(line)[';'] != 1
    ensures LoadAccounts([line] + rest) == LoadAccounts(rest)
  {
    assert ([line] + rest)[1..] == rest;
  }

  /** A line with exactly one `;` contributes its two fields, in place. */
  lemma LoadKeepsWellFormedLine(line: string, rest: seq<string>)
    requires multiset(line)[';'] == 1
    ensures exists a :: FormatLine(a) == line && LoadAccounts([line] + rest) == [a] + LoadAccounts(rest)
  {
    assert ([line] + rest)[1..] == rest;
    var a := ParseLine(line).value;
    assert FormatLine(a) == line;
  }

  /** The line break `WriteLine` added is where `ReadAllLines` ends the line. */
  lemma LineEndAfterLine(line: string, nl: NewLine, rest: string)
    requires NoBreak(line)
    ensures LineEnd(line + Terminator(nl) + rest) == |line|
  {
    var s := line + Terminator(nl) + rest;
    assert s[..|line|] == line;
    assert IsBreak(s[|line|]);
  }

  /** `ReadAllLines` takes a written line off the front of the text. */
  lemma ReadAllLinesStep(line: string, nl: NewLine, rest: string)
    requires NoBreak(line)
    ensures ReadAllLines(line + Terminator(nl) + rest) == [line] + ReadAllLines(rest)
  {
    var s := line + Terminator(nl) + rest;
    LineEndAfterLine(line, nl, rest);
    assert s[..|line|] == line;
    match nl
    case LF =>
      assert s[|line| + 1..] == rest;
    case CRLF =>
      assert s[|line|] == '\r' && s[|line| + 1] == '\n';
      assert s[|line| + 2..] == rest;
  }

  /** Reading back written lines recovers them, provided none holds a break. */
  lemma {:induction false} ReadWriteLines(lines: seq<string>, nl: NewLine)
    requires forall k :: 0 <= k < |lines| ==> NoBreak(lines[k])
    ensures ReadAllLines(WriteLines(lines, nl)) == lines
    decreases |lines|
  {
    if |lines| > 0 {
      ReadAllLinesStep(lines[0], nl, WriteLines(lines[1..], nl));
      ReadWriteLines(lines[1..], nl);
      assert lines == [lines[0]] + lines[1..];
    }
  }

  /** A saved line parses back to its record, provided no field holds `;`. */
  lemma ParseFormatLine(a: Account)
    requires ';' !in a.username && ';' !in a.password
    ensures ParseLine(FormatLine(a)) == Some(a)
  {
    SplitAfterPrefix(a.username, ';', a.password);
    SplitWithoutSeparator(a.password, ';');
    assert FormatLine(a) == a.username + [';'] + a.password;
  }

  /** Parsing the saved lines gives back the list. */
  lemma {:induction false} LoadFormatAccounts(accounts: seq<Account>)
    requires forall k :: 0 <= k < |accounts| ==> ';' !in accounts[k].username && ';' !in accounts[k].password
    ensures LoadAccounts(FormatAccounts(accounts)) == accounts
    decreases |accounts|
  {
    if |accounts| > 0 {
      ParseFormatLine(accounts[0]);
      LoadFormatAccounts(accounts[1..]);
      assert FormatAccounts(accounts)[1..] == FormatAccounts(accounts[1..]);
      assert accounts == [accounts[0]] + accounts[1..];
    }
  }

  /** Saving a list and loading the file gives back the same list, in order,
      provided every record is storable, whichever line terminator was used. */
  lemma LoadSaveRoundTrip(accounts: seq<Account>, nl: NewLine)
    requires AllStorable(accounts)
    ensures Load(SaveText(accounts, nl)) == accounts
  {
    ReadWriteLines(FormatAccounts(accounts), nl);
    LoadFormatAccounts(accounts);
  }

  /** A successful `CreateAccount` rewrites the file; reloading that file
      recovers the in-memory list including the new record. */
  lemma ReloadAfterCreate(accounts: seq<Account>, username: string, password: string, nl: NewLine)
    requires AllStorable(accounts)
    requires Storable(Account(username, password))
    requires CreateAccount(accounts, username, password).created
    ensures Load(SaveText(CreateAccount(accounts, username, password).accounts, nl))
            == accounts + [Account(username, password)]
  {
    var after := CreateAccount(accounts, username, password).accounts;
    assert after == accounts + [Account(username, password)];
    LoadSaveRoundTrip(after, nl);
  }
}

=== FILE: accounts.dfy ===
/** The in-memory credential list of `AccountManager`: creating accounts
    under unique usernames and validating logins. Usernames and passwords
    are compared exactly (ordinal, case-sensitive), as C# `==` on strings does. */
module Accounts {
  import opened Wrappers

  /** One stored credential record (`SaveFiles`), kept in plain text. */
  datatype Account = Account(username: string, password: string)

  /** Some record carries this username. */
  predicate UsernameTaken(accounts: seq<Account>, username: string) {
    exists i :: 0 <= i < |accounts| && accounts[i].username == username
  }

  /** Some record carries exactly this username and password. */
  predicate HasCredentials(accounts: seq<Account>, username: string, password: string) {
    exists i :: 0 <= i < |accounts| && accounts[i] == Account(username, password)
  }

  /** The first record carrying this username holds this password. */
  predicate FirstRecordHas(accounts: seq<Account>, username: string, password: string) {
    exists i :: 0 <= i < |accounts| && accounts[i] == Account(username, password) &&
      forall j :: 0 <= j < i ==> accounts[j].username != username
  }

  /** No two records share a username. */
  predicate DistinctUsernames(accounts: seq<Account>) {
    forall i, j :: 0 <= i < j < |accounts| ==> accounts[i].username != accounts[j].username
  }

  /** Position of the first record with this username, the record that
      `List.Find` returns; `None` when there is none. */
  function FindIndex(accounts: seq<Account>, username: string): (r: Option<nat>)
    ensures r.None? <==> !UsernameTaken(accounts, username)
    ensures r.Some? ==> r.value < |accounts| && accounts[r.value].username == username
    ensures r.Some? ==> forall j :: 0 <= j < r.value ==> accounts[j].username != username
    decreases |accounts|
  {
    if |accounts| == 0 then None
    else if accounts[0].username == username then Some(0)
    else
      match FindIndex(accounts[1..], username)
      case None => None
      case Some(k) => Some(k + 1)
  }

  /** Outcome of `CreateAccount`: whether it succeeded, and the list after it. */
  datatype CreateResult = CreateResult(created: bool, accounts: seq<Account>)

  /** `CreateAccount(username, password)`: refuses a username that is already
      stored, otherwise appends the new record at the end. */
  function CreateAccount(accounts: seq<Account>, username: string, password: string): (r: CreateResult)
    ensures r.created <==> !UsernameTaken(accounts, username)
    ensures !r.created ==> r.accounts == accounts
    ensures r.created ==> |r.accounts| == |accounts| + 1
    ensures r.created ==> r.accounts[..|accounts|] == accounts
    ensures r.created ==> r.accounts[|accounts|] == Account(username, password)
    ensures DistinctUsernames(accounts) ==> DistinctUsernames(r.accounts)
  {
    if UsernameTaken(accounts, username) then
      CreateResult(false, accounts)
    else
      CreateResult(true, accounts + [Account(username, password)])
  }

  /** `ValidateLogin(username, password)`: finds the first record with the
      username and compares its password. */
  function ValidateLogin(accounts: seq<Account>, username: string, password: string): (ok: bool)
    ensures ok ==> HasCredentials(accounts, username, password)
    ensures !UsernameTaken(accounts, username) ==> !ok
    ensures DistinctUsernames(accounts) ==> (ok <==> HasCredentials(accounts, username, password))
    ensures ok <==> FirstRecordHas(accounts, username, password)
  {
    match FindIndex(accounts, username)
    case None => false
    case Some(i) =>
      assert FirstRecordHas(accounts, username, password) ==> accounts[i].password == password by {
        if FirstRecordHas(accounts, username, password) {
          var k :| 0 <= k < |accounts| && accounts[k] == Account(username, password) &&
            forall j :: 0 <= j < k ==> accounts[j].username != username;
          assert accounts[k].username == username && accounts[i].username == username;
        }
      }
      accounts[i].password == password
  }

  /** After a successful creation the new credentials log in, and no other
      password does for that username. */
  lemma ValidateAfterCreate(accounts: seq<Account>, username: string, password: string, other: string)
    requires CreateAccount(accounts, username, password).created
    ensures ValidateLogin(CreateAccount(accounts, username, password).accounts, username, password)
    ensures other != password ==>
      !ValidateLogin(CreateAccount(accounts, username, password).accounts, username, other)
  {
    var after := CreateAccount(accounts, username, password).accounts;
    assert forall j :: 0 <= j < |accounts| ==> after[j].username != username;
    assert after[|accounts|].username == username;
  }

  /** Creating the same username twice: the first call succeeds, the second
      fails and changes nothing, whatever its password. */
  lemma CreateTwice(accounts: seq<Account>, username: string, password: string, password2: string)
    requires !UsernameTaken(accounts, username)
    ensures var first := CreateAccount(accounts, username, password);
      first.created
      && !CreateAccount(first.accounts, username, password2).created
      && CreateAccount(first.accounts, username, password2).accounts == first.accounts
  {
    var first := CreateAccount(accounts, username, password);
    assert first.accounts[|accounts|].username == username;
  }

  /** Usernames differing only in letter case are different accounts. */
  lemma UsernamesAreCaseSensitive(password: string, password2: string)
    ensures CreateAccount([Account("Alice", password)], "alice", password2).created
    ensures !ValidateLogin([Account("Alice", password)], "alice", password)
  {
    assert "Alice"[0] != "alice"[0];
  }

  /** Only the first record for a username is consulted: with duplicate
      usernames a stored password can fail to validate. */
  lemma ValidateLoginSeesFirstRecordOnly()
    ensures var accounts := [Account("a", "x"), Account("a", "y")];
      HasCredentials(accounts, "a", "y") && !ValidateLogin(accounts, "a", "y")
  {
    var accounts := [Account("a", "x"), Account("a", "y")];
    assert accounts[1] == Account("a", "y");
    assert "x" != "y" by { assert "x"[0] != "y"[0]; }
  }
}

=== FILE: connections.dfy ===
/** The server's list of client connections: accepting a connection and
    numbering it, marking one as disconnected, and pruning the ones that
    are no longer created with swap-back removal. The transport that
    produces connections is not modelled; a connection is a value. */
module Connections {

  /** A transport connection handle; `default(NetworkConnection)` has
      version 0, and a handle is created exactly when its version is not 0. */
  datatype Connection = Connection(internalId: int, version: int) {
    predicate IsCreated() {
      version != 0
    }
  }

  const Default: Connection := Connection(0, 0)

  /** `RemoveAtSwapBack(i)`: the last element takes slot `i` and the list
      shrinks by one. */
  function RemoveAtSwapBack(list: seq<Connection>, i: nat): (r: seq<Connection>)
    requires i < |list|
    ensures |r| == |list| - 1
    ensures multiset(r) == multiset(list) - multiset{list[i]}
    ensures forall j :: 0 <= j < |r| && j != i ==> r[j] == list[j]
  {
    var r := list[i := list[|list| - 1]][..|list| - 1];
    SwapBackMultiset(list, i, r);
    r
  }

  lemma SwapBackMultiset(list: seq<Connection>, i: nat, r: seq<Connection>)
    requires i < |list| && r == list[i := list[|list| - 1]][..|list| - 1]
    ensures multiset(r) == multiset(list) - multiset{list[i]}
  {
    var last := |list| - 1;
    if i == last {
      assert list == r + [list[i]];
    } else {
      var a, b := list[..i], list[i + 1..last];
      assert list == a + [list[i]] + b + [list[last]];
      assert r == a + [list[last]] + b;
      MultisetSwap(a, list[i], b, list[last]);
    }
  }

  /** Moving the last element into slot `x`'s place removes one `x`. */
  lemma MultisetSwap(a: seq<Connection>, x: Connection, b: seq<Connection>, y: Connection)
    ensures multiset(a + [y] + b) == multiset(a + [x] + b + [y]) - multiset{x}
  {
    assert multiset(a + [x] + b + [y]) == multiset(a) + multiset{x} + multiset(b) + multiset{y};
    assert multiset(a + [y] + b) == multiset(a) + multiset{y} + multiset(b);
  }

  /** `after` is what pruning `before` may leave: only created connections,
      each created connection as often as before. */
  ghost predicate PrunedFrom(before: seq<Connection>, after: seq<Connection>) {
    && (forall k :: 0 <= k < |after| ==> after[k].IsCreated())
    && (forall c: Connection :: c.IsCreated() ==> multiset(after)[c] == multiset(before)[c])
  }

  /** The prune loop of `Update`: a connection that is not created is
      swapped out, and the same index is examined again (`i--` before the
      loop's `i++`). */
  method Prune(connections: seq<Connection>) returns (live: seq<Connection>)
    ensures PrunedFrom(connections, live)
  {
    live := connections;
    var i: int := 0;
    while i < |live|
      invariant 0 <= i <= |live|
      invariant forall k :: 0 <= k < i ==> live[k].IsCreated()
      invariant forall c: Connection :: c.IsCreated() ==> multiset(live)[c] == multiset(connections)[c]
      decreases |live| - i
    {
      if !live[i].IsCreated() {
        live := RemoveAtSwapBack(live, i);
        i := i - 1;
      }
      i := i + 1;
    }
  }

  /** The disconnect branch of `Update`: slot `i` becomes the default handle. */
  function MarkDisconnected(connections: seq<Connection>, i: nat): (r: seq<Connection>)
    requires i < |connections|
    ensures |r| == |connections| && !r[i].IsCreated()
    ensures forall j :: 0 <= j < |r| && j != i ==> r[j] == connections[j]
  {
    connections[i := Default]
  }

  /** A disconnected connection loses one occurrence at the next prune;
      every other created connection keeps its count. */
  lemma DisconnectThenPrune(connections: seq<Connection>, i: nat, live: seq<Connection>)
    requires i < |connections| && connections[i].IsCreated()
    requires PrunedFrom(MarkDisconnected(connections, i), live)
    ensures multiset(live)[connections[i]] == multiset(connections)[connections[i]] - 1
    ensures forall c: Connection :: c.IsCreated() && c != connections[i] ==>
              multiset(live)[c] == multiset(connections)[c]
  {
    var marked := MarkDisconnected(connections, i);
    assert marked == connections[i := Default];
    assert multiset(marked) == multiset(connections) - multiset{connections[i]} + multiset{Default};
  }

  /** The server's view of its connections: the list, and the id given to
      each accepted connection (`connectionToPlayerId`). */
  datatype Registry = Registry(connections: seq<Connection>, playerIds: map<Connection, int>)

  /** `AcceptIncomingConnection`, given what the driver's `Accept` returned:
      the default handle means nothing is waiting; otherwise the connection
      is appended and gets the list length after the append as its id. */
  function AcceptIncomingConnection(reg: Registry, accepted: Connection): (r: (bool, Registry))
    ensures r.0 <==> accepted != Default
    ensures !r.0 ==> r.1 == reg
    ensures r.0 ==> r.1.connections == reg.connections + [accepted]
    ensures r.0 ==> accepted in r.1.playerIds && r.1.playerIds[accepted] == |r.1.connections|
    ensures r.0 ==> r.1.playerIds.Keys == reg.playerIds.Keys + {accepted}
    ensures r.0 ==> forall c :: c in reg.playerIds && c != accepted ==>
              c in r.1.playerIds && r.1.playerIds[c] == reg.playerIds[c]
  {
    if accepted == Default then
      (false, reg)
    else
      var connections := reg.connections + [accepted];
      (true, Registry(connections, reg.playerIds[accepted := |connections|]))
  }

  /** The id `AcceptIncomingConnection` hands out is the list length, and the
      list shrinks when a connection is pruned: accept `a` (id 1) and `b`
      (id 2), disconnect `a`, prune, accept `c`, and `c` gets id 2, the id
      `b` still holds. */
  lemma PlayerIdReusedAfterPrune(a: Connection, b: Connection, c: Connection, live: seq<Connection>)
    requires a.IsCreated() && b.IsCreated() && c.IsCreated()
    requires a != b && c != b
    requires PrunedFrom([Default, b], live)
    ensures var r1 := AcceptIncomingConnection(Registry([], map[]), a).1;
      var r2 := AcceptIncomingConnection(r1, b).1;
      r2.connections == [a, b] && MarkDisconnected(r2.connections, 0) == [Default, b]
    ensures var r1 := AcceptIncomingConnection(Registry([], map[]), a).1;
      var r2 := AcceptIncomingConnection(r1, b).1;
      var r3 := AcceptIncomingConnection(Registry(live, r2.playerIds), c).1;
      && r3.connections == [b, c]
      && r3.playerIds[b] == 2
      && r3.playerIds[c] == 2
  {
    PrunedToSingle(b, live);
  }

  /** Pruning a list whose only created connection is `b` leaves just `b`. */
  lemma PrunedToSingle(b: Connection, live: seq<Connection>)
    requires b.IsCreated()
    requires PrunedFrom([Default, b], live)
    ensures live == [b]
  {
    forall e: Connection ensures multiset(live)[e] == multiset{b}[e] {
      if e.IsCreated() {
        assert multiset([Default, b]) == multiset{Default, b};
      } else {
        assert e !in live;
      }
    }
    assert multiset(live) == multiset{b};
    assert |live| == 1;
    assert live[0] in multiset(live);
  }

  /** Connections with an id counter that only grows: the numbering the
      ids evidently intend, where no two accepted connections share an id. */
  datatype NumberedRegistry = NumberedRegistry(connections: seq<Connection>, playerIds: map<Connection, int>, nextId: int)

  /** Every id handed out is below the counter, and no two connections share one. */
  ghost predicate IdsUnique(reg: NumberedRegistry) {
    && reg.nextId >= 1
    && (forall c :: c in reg.playerIds ==> 1 <= reg.playerIds[c] < reg.nextId)
    && (forall c, d :: c in reg.playerIds && d in reg.playerIds && c != d ==> reg.playerIds[c] != reg.playerIds[d])
  }

  /** Accepting with the counter: the connection is appended as before, but
      its id is the counter's value, which no other connection holds. */
  function AcceptNumbered(reg: NumberedRegistry, accepted: Connection): (r: (bool, NumberedRegistry))
    requires IdsUnique(reg)
    ensures IdsUnique(r.1)
    ensures r.0 <==> accepted != Default
    ensures !r.0 ==> r.1 == reg
    ensures r.0 ==> r.1.connections == reg.connections + [accepted]
    ensures r.0 ==> accepted in r.1.playerIds
    ensures r.0 ==> r.1.playerIds.Keys == reg.playerIds.Keys + {accepted}
    ensures r.0 ==> r.1.playerIds[accepted] == reg.nextId && r.1.nextId == reg.nextId + 1
    ensures r.0 ==> forall c :: c in reg.playerIds && c != accepted ==>
              c in r.1.playerIds && r.1.playerIds[c] == reg.playerIds[c] != r.1.playerIds[accepted]
  {
    if accepted == Default then
      (false, reg)
    else
      (true, NumberedRegistry(reg.connections + [accepted], reg.playerIds[accepted := reg.nextId], reg.nextId + 1))
  }

  /** Pruning with the counter keeps every id and the counter. */
  method PruneNumbered(reg: NumberedRegistry) returns (r: NumberedRegistry)
    requires IdsUnique(reg)
    ensures IdsUnique(r)
    ensures PrunedFrom(reg.connections, r.connections)
    ensures r.playerIds == reg.playerIds && r.nextId == reg.nextId
  {
    var live := Prune(reg.connections);
    r := NumberedRegistry(live, reg.playerIds, reg.nextId);
  }

  /** The scenario that reuses an id under the source's numbering gives `c`
      a fresh id under the counter. */
  lemma NumberedIdsNotReused(a: Connection, b: Connection, c: Connection, live: seq<Connection>)
    requires a.IsCreated() && b.IsCreated() && c.IsCreated()
    requires a != b && c != b && c != a
    requires PrunedFrom([Default, b], live)
    ensures var r0 := NumberedRegistry([], map[], 1);
      var r1 := AcceptNumbered(r0, a).1;
      var r2 := AcceptNumbered(r1, b).1;
      var r3 := AcceptNumbered(NumberedRegistry(live, r2.playerIds, r2.nextId), c).1;
      r3.playerIds[b] == 2 && r3.playerIds[c] == 3
  {
  }
}

=== FILE: dispatch.dfy ===
/** `NetworkServer`'s handling of one received message, at string level:
    split on `,`, read the command identifier, and run the account-creation
    or login branch against the server's own record list (`playerSaves`),
    replying to every created connection. */
module Dispatch {
  import opened Wrappers
  import opened Text
  import opened Numbers
  import opened Accounts
  import opened Connections
  import ClientServerSignifiers
  import ServerClientSignifiers

  /** A message the server sends to one connection. */
  datatype Reply = Reply(to: Connection, msg: string)

  /** The effect of handling one message: the record list after it and the
      replies sent, in sending order. */
  datatype Effect = Effect(saves: seq<Account>, replies: seq<Reply>)

  /** Why a message was logged and ignored. */
  datatype DropReason = TooFewTokens | UnparsableIdentifier

  /** What a received message amounts to. `IndexOutOfRange` is a create or
      login message with only two tokens: its branch reads a third token that
      is not there, and the exception leaves the message without effect. */
  datatype Command =
    | Dropped(reason: DropReason)
    | IndexOutOfRange(identifier: int)
    | CreateAccountCommand(username: string, password: string)
    | LoginCommand(username: string, password: string)
    | Unhandled(identifier: int)

  const AccountCreationFailedReply: string := ShowInt(ServerClientSignifiers.AccountCreationFailed) + ", username is already in use!"
  const AccountCreatedReply: string := ShowInt(ServerClientSignifiers.AccountCreated) + ", the new account has been created"
  const LoginCompleteReply: string := ShowInt(ServerClientSignifiers.LoginComplete)
  const LoginFailedReply: string := ShowInt(ServerClientSignifiers.LoginFailed)

  /** The created connections, in list order. */
  function Live(connections: seq<Connection>): (live: seq<Connection>)
    ensures |live| <= |connections|
    ensures forall k :: 0 <= k < |live| ==> live[k].IsCreated()
    ensures forall k :: 0 <= k < |connections| && connections[k].IsCreated() ==> connections[k] in live
    ensures forall k :: 0 <= k < |live| ==> live[k] in connections
    decreases |connections|
  {
    if |connections| == 0 then []
    else if connections[0].IsCreated() then [connections[0]] + Live(connections[1..])
    else Live(connections[1..])
  }

  /** Live keeps every created connection as often as the list holds it,
      and nothing else. */
  lemma {:induction false} LiveCounts(connections: seq<Connection>)
    ensures forall c :: multiset(Live(connections))[c] == if c.IsCreated() then multiset(connections)[c] else 0
    decreases |connections|
  {
    if |connections| > 0 {
      assert connections == [connections[0]] + connections[1..];
      LiveCounts(connections[1..]);
    }
  }

  /** Live keeps list order: the created connections of a concatenation are
      those of the first part followed by those of the second. */
  lemma {:induction false} LiveConcat(xs: seq<Connection>, ys: seq<Connection>)
    ensures Live(xs + ys) == Live(xs) + Live(ys)
    decreases |xs|
  {
    if |xs| > 0 {
      assert (xs + ys)[0] == xs[0];
      assert (xs + ys)[1..] == xs[1..] + ys;
      LiveConcat(xs[1..], ys);
    } else {
      assert xs + ys == ys;
    }
  }

  /** One copy of `msg` for each created connection, in list order. */
  function Broadcast(connections: seq<Connection>, msg: string): (rs: seq<Reply>)
    ensures |rs| == |Live(connections)|
    ensures forall k :: 0 <= k < |rs| ==> rs[k] == Reply(Live(connections)[k], msg)
    ensures forall k :: 0 <= k < |rs| ==> rs[k].to.IsCreated()
    decreases |connections|
  {
    if |connections| == 0 then []
    else if connections[0].IsCreated() then [Reply(connections[0], msg)] + Broadcast(connections[1..], msg)
    else Broadcast(connections[1..], msg)
  }

  /** `n` copies of one record. */
  function Repeat(a: Account, n: nat): (r: seq<Account>)
    ensures |r| == n
    ensures forall k :: 0 <= k < n ==> r[k] == a
  {
    seq(n, _ => a)
  }

  /** Splits the message on `,` and decodes its tokens: checks the token
      count, parses the identifier and picks the branch. */
  function Decode(msg: string): (cmd: Command)
    ensures cmd == Dropped(TooFewTokens) <==> ',' !in msg
    ensures cmd == Dropped(UnparsableIdentifier) <==> ',' in msg && TryParse(Split(msg, ',')[0]).None?
    ensures (cmd.CreateAccountCommand? || cmd.LoginCommand?) ==>
              multiset(msg)[','] >= 2 && ',' !in cmd.username && ',' !in cmd.password
    ensures var tokens := Split(msg, ',');
      cmd.CreateAccountCommand? <==> |tokens| >= 3 && TryParse(tokens[0]) == Some(ClientServerSignifiers.CreateAccount)
    ensures var tokens := Split(msg, ',');
      cmd.LoginCommand? <==> |tokens| >= 3 && TryParse(tokens[0]) == Some(ClientServerSignifiers.Login)
    ensures var tokens := Split(msg, ',');
      cmd.CreateAccountCommand? || cmd.LoginCommand? ==> cmd.username == tokens[1] && cmd.password == tokens[2]
    ensures var tokens := Split(msg, ',');
      cmd.IndexOutOfRange? <==>
        (|tokens| == 2 &&
         (TryParse(tokens[0]) == Some(ClientServerSignifiers.CreateAccount) || TryParse(tokens[0]) == Some(ClientServerSignifiers.Login)))
    ensures var tokens := Split(msg, ',');
      cmd.Unhandled? <==>
        (|tokens| >= 2 && TryParse(tokens[0]).Some? &&
         TryParse(tokens[0]).value != ClientServerSignifiers.CreateAccount && TryParse(tokens[0]).value != ClientServerSignifiers.Login)
    ensures cmd.IndexOutOfRange? || cmd.Unhandled? ==> TryParse(Split(msg, ',')[0]) == Some(cmd.identifier)
  {
    DecodeTokens(Split(msg, ','))
  }

  /** The branch `ProcessReceivedMsg` takes for the tokens of a message; it
      looks at the token count and at the first three tokens only. */
  function DecodeTokens(tokens: seq<string>): Command {
    if |tokens| < 2 then Dropped(TooFewTokens)
    else
      match TryParse(tokens[0])
      case None => Dropped(UnparsableIdentifier)
      case Some(identifier) =>
        if identifier == ClientServerSignifiers.CreateAccount then
          if |tokens| < 3 then IndexOutOfRange(identifier) else CreateAccountCommand(tokens[1], tokens[2])
        else if identifier == ClientServerSignifiers.Login then
          if |tokens| < 3 then IndexOutOfRange(identifier) else LoginCommand(tokens[1], tokens[2])
        else
          Unhandled(identifier)
  }

  /** The `checkIsUsed` loop: visits every record, raising the flag on a
      username match and never lowering it. */
  function ScanUsernameUsed(saves: seq<Account>, username: string, flag: bool): (used: bool)
    ensures used <==> flag || UsernameTaken(saves, username)
    decreases |saves|
  {
    if |saves| == 0 then flag
    else
      var used := ScanUsernameUsed(saves[1..], username, flag || saves[0].username == username);
      assert UsernameTaken(saves[1..], username) ==> UsernameTaken(saves, username);
      used
  }

  /** The fresh-username loop: for each created connection, append the record
      (`SaveNewPlayer`) and send `AccountCreated` to it. */
  function SaveForEachLive(connections: seq<Connection>, saves: seq<Account>, record: Account): (e: Effect)
    ensures e.saves == saves + Repeat(record, |Live(connections)|)
    ensures e.replies == Broadcast(connections, AccountCreatedReply)
    decreases |connections|
  {
    if |connections| == 0 then Effect(saves, [])
    else if connections[0].IsCreated() then
      var e := SaveForEachLive(connections[1..], saves + [record], record);
      assert saves + [record] + Repeat(record, |Live(connections[1..])|)
          == saves + Repeat(record, |Live(connections)|);
      Effect(e.saves, [Reply(connections[0], AccountCreatedReply)] + e.replies)
    else
      SaveForEachLive(connections[1..], saves, record)
  }

  /** The create-account branch. */
  function HandleCreateAccount(connections: seq<Connection>, saves: seq<Account>, username: string, password: string): (e: Effect)
    ensures UsernameTaken(saves, username) ==> e.saves == saves
    ensures UsernameTaken(saves, username) ==> e.replies == Broadcast(connections, AccountCreationFailedReply)
    ensures !UsernameTaken(saves, username) ==>
              e.saves == saves + Repeat(Account(username, password), |Live(connections)|)
    ensures !UsernameTaken(saves, username) ==> e.replies == Broadcast(connections, AccountCreatedReply)
    ensures |e.saves| >= |saves| && e.saves[..|saves|] == saves
    ensures forall k :: 0 <= k < |e.replies| ==> e.replies[k].to.IsCreated()
  {
    if ScanUsernameUsed(saves, username, false) then
      Effect(saves, Broadcast(connections, AccountCreationFailedReply))
    else
      SaveForEachLive(connections, saves, Account(username, password))
  }

  /** The loop at the top of `HandleLogin`: stops at the first record whose
      username and password both match. */
  function LoginScan(saves: seq<Account>, username: string, password: string): (found: bool)
    ensures found <==> HasCredentials(saves, username, password)
    decreases |saves|
  {
    if |saves| == 0 then false
    else if username == saves[0].username && password == saves[0].password then true
    else
      var found := LoginScan(saves[1..], username, password);
      assert HasCredentials(saves[1..], username, password) ==> HasCredentials(saves, username, password);
      found
  }

  /** `CheckUserCredentials`: the same decision as `HandleLogin` makes,
      computed by its own loop with an early return. */
  method CheckUserCredentials(saves: seq<Account>, username: string, password: string) returns (ok: bool)
    ensures ok <==> HasCredentials(saves, username, password)
    ensures ok == LoginScan(saves, username, password)
  {
    var i := 0;
    while i < |saves|
      invariant 0 <= i <= |saves|
      invariant forall k :: 0 <= k < i ==> saves[k] != Account(username, password)
    {
      if saves[i].username == username && saves[i].password == password {
        return true;
      }
      i := i + 1;
    }
    return false;
  }

  /** `HandleLogin`: `LoginComplete` to every created connection when some
      record matches, `LoginFailed` to each otherwise; the records stay as they are. */
  function HandleLogin(connections: seq<Connection>, saves: seq<Account>, username: string, password: string): (e: Effect)
    ensures e.saves == saves
    ensures HasCredentials(saves, username, password) ==> e.replies == Broadcast(connections, LoginCompleteReply)
    ensures !HasCredentials(saves, username, password) ==> e.replies == Broadcast(connections, LoginFailedReply)
    ensures forall k :: 0 <= k < |e.replies| ==> e.replies[k].to.IsCreated()
  {
    if LoginScan(saves, username, password) then
      Effect(saves, Broadcast(connections, LoginCompleteReply))
    else
      Effect(saves, Broadcast(connections, LoginFailedReply))
  }

  /** `ProcessReceivedMsg`: decodes the message and runs its branch; every
      other outcome leaves the records alone and sends nothing. */
  function ProcessReceivedMsg(msg: string, connections: seq<Connection>, saves: seq<Account>): (e: Effect)
    ensures |e.saves| >= |saves| && e.saves[..|saves|] == saves
    ensures forall k :: 0 <= k < |e.replies| ==> e.replies[k].to.IsCreated()
    ensures ',' !in msg ==> e == Effect(saves, [])
    ensures Decode(msg).Dropped? || Decode(msg).IndexOutOfRange? || Decode(msg).Unhandled? ==> e == Effect(saves, [])
    ensures Decode(msg).CreateAccountCommand? && !UsernameTaken(saves, Decode(msg).username) ==>
              e == Effect(saves + Repeat(Account(Decode(msg).username, Decode(msg).password), |Live(connections)|),
                          Broadcast(connections, AccountCreatedReply))
    ensures Decode(msg).CreateAccountCommand? && UsernameTaken(saves, Decode(msg).username) ==>
              e == Effect(saves, Broadcast(connections, AccountCreationFailedReply))
    ensures Decode(msg).LoginCommand? ==>
              e == Effect(saves, Broadcast(connections,
                     if HasCredentials(saves, Decode(msg).username, Decode(msg).password) then LoginCompleteReply else LoginFailedReply))
  {
    Execute(Decode(msg), connections, saves)
  }

  /** The branch a decoded message runs. */
  function Execute(cmd: Command, connections: seq<Connection>, saves: seq<Account>): Effect {
    match cmd
    case CreateAccountCommand(username, password) => HandleCreateAccount(connections, saves, username, password)
    case LoginCommand(username, password) => HandleLogin(connections, saves, username, password)
    case _ => Effect(saves, [])
  }

  /** A client message: the identifier in decimal, then the arguments, joined by `,`. */
  function FormatRequest(identifier: int, args: seq<string>): string {
    Join([ShowInt(identifier)] + args, ',')
  }

  /** Decoding a message whose first token is any comma-free text: the
      identifier is whatever `int.TryParse` reads from that token, and the
      arguments are the tokens after it. Every message with a `,` has this
      form (`Text.JoinSplit`). */
  lemma DecodeRequest(first: string, args: seq<string>)
    requires ',' !in first
    requires |args| >= 1
    requires forall k :: 0 <= k < |args| ==> ',' !in args[k]
    ensures TryParse(first).None? ==>
              Decode(Join([first] + args, ',')) == Dropped(UnparsableIdentifier)
    ensures TryParse(first) == Some(ClientServerSignifiers.CreateAccount) && |args| >= 2 ==>
              Decode(Join([first] + args, ',')) == CreateAccountCommand(args[0], args[1])
    ensures TryParse(first) == Some(ClientServerSignifiers.Login) && |args| >= 2 ==>
              Decode(Join([first] + args, ',')) == LoginCommand(args[0], args[1])
    ensures (TryParse(first) == Some(ClientServerSignifiers.CreateAccount) || TryParse(first) == Some(ClientServerSignifiers.Login)) && |args| == 1 ==>
              Decode(Join([first] + args, ',')) == IndexOutOfRange(TryParse(first).value)
    ensures TryParse(first).Some? && TryParse(first).value != ClientServerSignifiers.CreateAccount && TryParse(first).value != ClientServerSignifiers.Login ==>
              Decode(Join([first] + args, ',')) == Unhandled(TryParse(first).value)
  {
    SplitJoin([first] + args, ',');
  }

  /** Decoding a formatted message recovers the identifier and the first two
      arguments, provided no argument holds a `,`. */
  lemma DecodeFormatRequest(identifier: int, args: seq<string>)
    requires IsInt32(identifier)
    requires |args| >= 1
    requires forall k :: 0 <= k < |args| ==> ',' !in args[k]
    ensures identifier == ClientServerSignifiers.CreateAccount && |args| >= 2 ==>
              Decode(FormatRequest(identifier, args)) == CreateAccountCommand(args[0], args[1])
    ensures identifier == ClientServerSignifiers.Login && |args| >= 2 ==>
              Decode(FormatRequest(identifier, args)) == LoginCommand(args[0], args[1])
    ensures (identifier == ClientServerSignifiers.CreateAccount || identifier == ClientServerSignifiers.Login) && |args| == 1 ==>
              Decode(FormatRequest(identifier, args)) == IndexOutOfRange(identifier)
    ensures identifier != ClientServerSignifiers.CreateAccount && identifier != ClientServerSignifiers.Login ==>
              Decode(FormatRequest(identifier, args)) == Unhandled(identifier)
  {
    ShowIntAvoids(identifier, ',');
    TryParseShowInt(identifier);
    DecodeRequest(ShowInt(identifier), args);
  }

  /** A three-token message is the join of its tokens. */
  lemma ThreeTokens(first: string, username: string, password: string)
    ensures first + "," + username + "," + password == Join([first] + [username, password], ',')
  {
    var args := [username, password];
    assert Join(args, ',') == username + "," + password by {
      assert args[1..] == [password];
    }
    JoinCons(first, args, ',');
  }

  /** A three-token message whose first token parses as 1 or 2 is an
      account-creation or a login request for the other two tokens. */
  lemma DecodeThreeTokens(first: string, username: string, password: string)
    requires ',' !in first && ',' !in username && ',' !in password
    ensures TryParse(first) == Some(ClientServerSignifiers.CreateAccount) ==>
              Decode(first + "," + username + "," + password) == CreateAccountCommand(username, password)
    ensures TryParse(first) == Some(ClientServerSignifiers.Login) ==>
              Decode(first + "," + username + "," + password) == LoginCommand(username, password)
  {
    DecodeRequest(first, [username, password]);
    ThreeTokens(first, username, password);
  }

  /** An identifier text is white space, a sign and digits, none of them a `,`. */
  lemma IntegerTextHasNoComma(s: string, lead: string, sign: string, digits: string, trail: string)
    requires IntegerText(s, lead, sign, digits, trail)
    ensures ',' !in s
  {
    assert !IsWhite(',') && !IsDigit(',');
    assert ',' !in lead && ',' !in trail && ',' !in digits;
  }

  /** Identifiers need not be written canonically: any text `int.TryParse`
      reads as 1 or 2, with white space around it, a `+` or `-` sign or
      leading zeros, makes an account-creation or login request. */
  lemma NonCanonicalIdentifiers(first: string, lead: string, sign: string, digits: string, trail: string,
                                username: string, password: string)
    requires IntegerText(first, lead, sign, digits, trail)
    requires ',' !in username && ',' !in password
    ensures SignedDigits(sign, digits) == ClientServerSignifiers.CreateAccount ==>
              Decode(first + "," + username + "," + password) == CreateAccountCommand(username, password)
    ensures SignedDigits(sign, digits) == ClientServerSignifiers.Login ==>
              Decode(first + "," + username + "," + password) == LoginCommand(username, password)
  {
    IntegerTextHasNoComma(first, lead, sign, digits, trail);
    TryParseIntegerText(first, lead, sign, digits, trail);
    DecodeThreeTokens(first, username, password);
  }

  /** One instance: a `+` sign in front of the identifier. */
  lemma PlusSignedIdentifier(username: string, password: string)
    requires ',' !in username && ',' !in password
    ensures Decode("+1" + "," + username + "," + password) == CreateAccountCommand(username, password)
  {
    NonCanonicalIdentifiers("+1", "", "+", "1", "", username, password);
  }

  /** A message is an identifier text and its arguments joined by `,`; it
      names a create (login) request when the identifier reads as 1 (2) and
      there are at least two arguments. Any further arguments, white space
      or a sign around the identifier make no difference. */
  predicate RequestFor(first: string, args: seq<string>, identifier: int) {
    && ',' !in first
    && |args| >= 2
    && (forall k :: 0 <= k < |args| ==> ',' !in args[k])
    && TryParse(first) == Some(identifier)
  }

  /** A message made of comma-free tokens decodes as its tokens do. */
  lemma DecodeJoin(tokens: seq<string>)
    requires |tokens| >= 1
    requires forall k :: 0 <= k < |tokens| ==> ',' !in tokens[k]
    ensures Decode(Join(tokens, ',')) == DecodeTokens(tokens)
  {
    SplitJoin(tokens, ',');
  }

  /** Tokens after the third do not matter to decoding. */
  lemma DecodeIgnoresExtraTokens(tokens: seq<string>)
    requires |tokens| >= 3
    requires forall k :: 0 <= k < |tokens| ==> ',' !in tokens[k]
    ensures Decode(Join(tokens, ',')) == Decode(Join(tokens[..3], ','))
  {
    var short := tokens[..3];
    assert forall k :: 0 <= k < |short| ==> short[k] == tokens[k];
    DecodeJoin(tokens);
    DecodeJoin(short);
    DecodeTokensFirstThree(tokens);
  }

  /** `DecodeTokens` reads the first three tokens only. */
  lemma DecodeTokensFirstThree(tokens: seq<string>)
    requires |tokens| >= 3
    ensures DecodeTokens(tokens) == DecodeTokens(tokens[..3])
  {
    var short := tokens[..3];
    assert short[0] == tokens[0] && short[1] == tokens[1] && short[2] == tokens[2];
  }

  /** Tokens after the third do not matter: a message is handled as the
      message made of its first three tokens, so `1,u,p,x` creates the
      account `1,u,p` does. */
  lemma ExtraTokensIgnored(tokens: seq<string>, connections: seq<Connection>, saves: seq<Account>)
    requires |tokens| >= 3
    requires forall k :: 0 <= k < |tokens| ==> ',' !in tokens[k]
    ensures ProcessReceivedMsg(Join(tokens, ','), connections, saves)
            == ProcessReceivedMsg(Join(tokens[..3], ','), connections, saves)
  {
    DecodeIgnoresExtraTokens(tokens);
  }

  /** A create message for a fresh username stores the record once per
      created connection and acknowledges it to each of them. */
  lemma CreateFreshMessage(first: string, args: seq<string>, connections: seq<Connection>, saves: seq<Account>)
    requires RequestFor(first, args, ClientServerSignifiers.CreateAccount)
    requires !UsernameTaken(saves, args[0])
    ensures ProcessReceivedMsg(Join([first] + args, ','), connections, saves)
            == Effect(saves + Repeat(Account(args[0], args[1]), |Live(connections)|), Broadcast(connections, AccountCreatedReply))
  {
    DecodeRequest(first, args);
  }

  /** A create message for a stored username changes nothing and reports the
      failure to every created connection. */
  lemma CreateTakenMessage(first: string, args: seq<string>, connections: seq<Connection>, saves: seq<Account>)
    requires RequestFor(first, args, ClientServerSignifiers.CreateAccount)
    requires UsernameTaken(saves, args[0])
    ensures ProcessReceivedMsg(Join([first] + args, ','), connections, saves)
            == Effect(saves, Broadcast(connections, AccountCreationFailedReply))
  {
    DecodeRequest(first, args);
  }

  /** A login message changes nothing and reports to every created
      connection whether some record matches. */
  lemma LoginMessage(first: string, args: seq<string>, connections: seq<Connection>, saves: seq<Account>)
    requires RequestFor(first, args, ClientServerSignifiers.Login)
    ensures ProcessReceivedMsg(Join([first] + args, ','), connections, saves)
            == Effect(saves, Broadcast(connections,
                 if HasCredentials(saves, args[0], args[1]) then LoginCompleteReply else LoginFailedReply))
  {
    DecodeRequest(first, args);
  }

  /** The canonical identifier texts `"1"` and `"2"` name their requests. */
  lemma CanonicalRequest(identifier: int, args: seq<string>)
    requires identifier == ClientServerSignifiers.CreateAccount || identifier == ClientServerSignifiers.Login
    requires |args| >= 2
    requires forall k :: 0 <= k < |args| ==> ',' !in args[k]
    ensures RequestFor(ShowInt(identifier), args, identifier)
    ensures FormatRequest(identifier, args) == Join([ShowInt(identifier)] + args, ',')
  {
    ShowIntAvoids(identifier, ',');
    TryParseShowInt(identifier);
  }

  /** The account and login exchange for one username while a client is
      connected: creation succeeds and is acknowledged; a second creation
      under that username fails; the right password logs in and any other
      does not. */
  lemma CreateThenLogin(connections: seq<Connection>, saves: seq<Account>, username: string, password: string, other: string)
    requires ',' !in username && ',' !in password && ',' !in other
    requires !UsernameTaken(saves, username)
    requires other != password
    requires |Live(connections)| >= 1
    ensures var after := saves + Repeat(Account(username, password), |Live(connections)|);
      && ProcessReceivedMsg(FormatRequest(ClientServerSignifiers.CreateAccount, [username, password]), connections, saves)
         == Effect(after, Broadcast(connections, AccountCreatedReply))
      && ProcessReceivedMsg(FormatRequest(ClientServerSignifiers.CreateAccount, [username, other]), connections, after)
         == Effect(after, Broadcast(connections, AccountCreationFailedReply))
      && ProcessReceivedMsg(FormatRequest(ClientServerSignifiers.Login, [username, password]), connections, after)
         == Effect(after, Broadcast(connections, LoginCompleteReply))
      && ProcessReceivedMsg(FormatRequest(ClientServerSignifiers.Login, [username, other]), connections, after)
         == Effect(after, Broadcast(connections, LoginFailedReply))
  {
    var after := saves + Repeat(Account(username, password), |Live(connections)|);
    RecordsAfterCreate(saves, username, password, other, |Live(connections)|);
    var create, login := ShowInt(ClientServerSignifiers.CreateAccount), ShowInt(ClientServerSignifiers.Login);
    CanonicalRequest(ClientServerSignifiers.CreateAccount, [username, password]);
    CanonicalRequest(ClientServerSignifiers.CreateAccount, [username, other]);
    CanonicalRequest(ClientServerSignifiers.Login, [username, password]);
    CanonicalRequest(ClientServerSignifiers.Login, [username, other]);
    CreateFreshMessage(create, [username, password], connections, saves);
    CreateTakenMessage(create, [username, other], connections, after);
    LoginMessage(login, [username, password], connections, after);
    LoginMessage(login, [username, other], connections, after);
  }

  /** What the records appended for a fresh username make true of the list. */
  lemma RecordsAfterCreate(saves: seq<Account>, username: string, password: string, other: string, n: nat)
    requires !UsernameTaken(saves, username)
    requires other != password
    ensures var after := saves + Repeat(Account(username, password), n);
      && (UsernameTaken(after, username) <==> n > 0)
      && (HasCredentials(after, username, password) <==> n > 0)
      && !HasCredentials(after, username, other)
  {
    var after := saves + Repeat(Account(username, password), n);
    assert forall k :: 0 <= k < |saves| ==> after[k] == saves[k];
    assert forall k :: |saves| <= k < |after| ==> after[k] == Account(username, password);
    if n > 0 {
      assert after[|saves|] == Account(username, password);
    }
  }

  /** With two or more created connections, a fresh username is stored more
      than once: the server's record list loses unique usernames. */
  lemma CreateStoresOneCopyPerConnection(connections: seq<Connection>, saves: seq<Account>, username: string, password: string)
    requires !UsernameTaken(saves, username)
    requires |Live(connections)| >= 2
    ensures var after := HandleCreateAccount(connections, saves, username, password).saves;
      && after[|saves|] == after[|saves| + 1] == Account(username, password)
      && !DistinctUsernames(after)
  {
    var after := HandleCreateAccount(connections, saves, username, password).saves;
    assert after[|saves|].username == after[|saves| + 1].username;
  }

  /** With no created connection, a fresh username is not stored at all and
      nothing is sent. */
  lemma CreateWithoutConnectionsStoresNothing(connections: seq<Connection>, saves: seq<Account>, username: string, password: string)
    requires |Live(connections)| == 0
    ensures HandleCreateAccount(connections, saves, username, password) == Effect(saves, [])
  {
    assert saves + Repeat(Account(username, password), 0) == saves;
  }
}

=== FILE: framing.dfy ===
/** The frame layout of one message on the reliable pipeline: a 4-byte
    `int` giving the payload length, then the payload bytes. `WriteInt` and
    `ReadInt` of the transport's stream writer and reader use the machine's
    byte order, taken here as little-endian two's complement. */
module Framing {
  import opened Wrappers
  import opened Numbers

  newtype byte = x: int | 0 <= x < 256

  const Two31: int := 0x8000_0000
  const Two32: int := 0x1_0000_0000

  /** `WriteInt(n)`: the four bytes of `n`, least significant first. */
  function WriteInt(n: int): (bs: seq<byte>)
    requires IsInt32(n)
    ensures |bs| == 4
  {
    var u := if n < 0 then n + Two32 else n;
    var u1 := u / 256;
    var u2 := u1 / 256;
    [(u % 256) as byte, (u1 % 256) as byte, (u2 % 256) as byte, (u2 / 256) as byte]
  }

  /** `ReadInt()`: the `int` held in the first four bytes. */
  function ReadInt(bs: seq<byte>): (n: int)
    requires |bs| >= 4
    ensures IsInt32(n)
  {
    var u := bs[0] as int + 256 * (bs[1] as int + 256 * (bs[2] as int + 256 * (bs[3] as int)));
    if u >= Two31 then u - Two32 else u
  }

  /** Reading an `int` back gives the value written. */
  lemma ReadWriteInt(n: int)
    requires IsInt32(n)
    ensures ReadInt(WriteInt(n)) == n
  {
    var u := if n < 0 then n + Two32 else n;
    var u1 := u / 256;
    var u2 := u1 / 256;
    assert u2 % 256 + 256 * (u2 / 256) == u2;
    assert u1 % 256 + 256 * u2 == u1;
    assert u % 256 + 256 * u1 == u;
  }

  /** Every four bytes are the encoding of the `int` they read as. */
  lemma WriteReadInt(bs: seq<byte>)
    requires |bs| == 4
    ensures WriteInt(ReadInt(bs)) == bs
  {
    var b0, b1, b2, b3 := bs[0] as int, bs[1] as int, bs[2] as int, bs[3] as int;
    var u2 := b2 + 256 * b3;
    var u1 := b1 + 256 * u2;
    var u := b0 + 256 * u1;
    assert u2 / 256 == b3 && u2 % 256 == b2;
    assert u1 / 256 == u2 && u1 % 256 == b1;
    assert u / 256 == u1 && u % 256 == b0;
  }

  /** `SendMessageToClient`'s frame: the payload length, then the payload. */
  function WriteFrame(payload: seq<byte>): (frame: seq<byte>)
    requires |payload| <= Int32Max
    ensures |frame| == 4 + |payload|
    ensures frame[4..] == payload
    ensures ReadInt(frame) == |payload|
  {
    ReadWriteInt(|payload|);
    var frame := WriteInt(|payload|) + payload;
    assert frame[..4] == WriteInt(|payload|);
    frame
  }

  /** The data-event branch of `Update`: read the length, then that many bytes.
      A negative length or a stream shorter than announced yields no payload. */
  function ReadFrame(bytes: seq<byte>): (r: Option<seq<byte>>)
    ensures r.None? <==> |bytes| < 4 || ReadInt(bytes) < 0 || |bytes| < 4 + ReadInt(bytes)
    ensures r.Some? ==> ReadInt(bytes) == |r.value| && bytes[4..4 + |r.value|] == r.value
  {
    if |bytes| < 4 then None
    else
      var size := ReadInt(bytes);
      if size < 0 || |bytes| < 4 + size then None else Some(bytes[4..4 + size])
  }

  /** Reading a frame recovers exactly the payload that was framed, whatever
      follows it in the stream. */
  lemma ReadWriteFrame(payload: seq<byte>, trailing: seq<byte>)
    requires |payload| <= Int32Max
    ensures ReadFrame(WriteFrame(payload) + trailing) == Some(payload)
  {
    var frame := WriteFrame(payload);
    var bytes := frame + trailing;
    assert bytes[..4] == frame[..4];
    assert ReadInt(bytes) == ReadInt(frame);
    assert bytes[4..4 + |payload|] == frame[4..];
  }
}

=== FILE: numbers.dfy ===
/** Decimal text for 32-bit integers, as the server uses it: `int.TryParse`
    reads the command identifier and `int.ToString()` writes the reply
    signifier. */
module Numbers {
  import opened Wrappers

  const Int32Min: int := -0x8000_0000
  const Int32Max: int := 0x7FFF_FFFF

  /** Values a C# `int` can hold. */
  predicate IsInt32(n: int) {
    Int32Min <= n <= Int32Max
  }

  predicate IsDigit(c: char) {
    '0' <= c <= '9'
  }

  predicate AllDigits(s: string) {
    forall i :: 0 <= i < |s| ==> IsDigit(s[i])
  }

  /** The white space `NumberStyles.Integer` lets through around a number:
      U+0009 to U+000D and U+0020. */
  predicate IsWhite(c: char) {
    c == ' ' || '\t' <= c <= '\r'
  }

  predicate AllWhite(s: string) {
    forall i :: 0 <= i < |s| ==> IsWhite(s[i])
  }

  function DigitValue(c: char): (d: nat)
    requires IsDigit(c)
    ensures d < 10
  {
    (c as int) - ('0' as int)
  }

  function DigitChar(d: nat): (c: char)
    requires d < 10
    ensures IsDigit(c) && DigitValue(c) == d
  {
    (('0' as int) + d) as char
  }

  /** Value of a run of decimal digits, most significant first. */
  function DigitsValue(s: string): nat
    requires AllDigits(s)
    decreases |s|
  {
    if |s| == 0 then 0 else DigitsValue(s[..|s| - 1]) * 10 + DigitValue(s[|s| - 1])
  }

  /** Shortest decimal rendering of a natural number; reading it back
      gives the number. */
  function ShowNat(n: nat): (s: string)
    ensures |s| >= 1 && AllDigits(s)
    ensures DigitsValue(s) == n
    ensures |s| == 1 || s[0] != '0'
    ensures n > 0 ==> s[0] != '0'
    decreases n
  {
    if n < 10 then [DigitChar(n)]
    else
      var prefix := ShowNat(n / 10);
      var s := prefix + [DigitChar(n % 10)];
      assert s[..|s| - 1] == prefix;
      assert s[0] == prefix[0];
      s
  }

  /** `n.ToString()`: a minus sign for negative values, then the digits. */
  function ShowInt(n: int): (s: string)
    ensures |s| >= 1
    ensures n >= 0 <==> IsDigit(s[0])
    ensures forall k :: 1 <= k < |s| ==> IsDigit(s[k])
    ensures n < 0 ==> s[0] == '-' && AllDigits(s[1..]) && DigitsValue(s[1..]) == -n && s[1] != '0'
    ensures n >= 0 ==> AllDigits(s) && DigitsValue(s) == n && (|s| == 1 || s[0] != '0')
  {
    if n < 0 then
      var s := "-" + ShowNat(-n);
      assert s[1..] == ShowNat(-n);
      s
    else ShowNat(n)
  }

  /** Drops leading white space. */
  function TrimStart(s: string): (r: string)
    ensures |r| <= |s| && r == s[|s| - |r|..]
    ensures |r| > 0 ==> !IsWhite(r[0])
    ensures forall k :: 0 <= k < |s| - |r| ==> IsWhite(s[k])
    decreases |s|
  {
    if |s| > 0 && IsWhite(s[0]) then TrimStart(s[1..]) else s
  }

  /** Drops trailing white space. */
  function TrimEnd(s: string): (r: string)
    ensures |r| <= |s| && r == s[..|r|]
    ensures |r| > 0 ==> !IsWhite(r[|r| - 1])
    ensures forall k :: |r| <= k < |s| ==> IsWhite(s[k])
    decreases |s|
  {
    if |s| > 0 && IsWhite(s[|s| - 1]) then TrimEnd(s[..|s| - 1]) else s
  }

  /** The text after an optional leading `+` or `-`, and whether it was `-`. */
  function SplitSign(t: string): (r: (bool, string))
    ensures r.1 == t || (|t| > 0 && r.1 == t[1..])
  {
    if |t| > 0 && t[0] == '-' then (true, t[1..])
    else if |t| > 0 && t[0] == '+' then (false, t[1..])
    else (false, t)
  }

  /** The value of an optionally negated run of digits, if it is a
      non-empty run of decimal digits whose value fits in an `int`. */
  function SignedValue(negative: bool, digits: string): (r: Option<int>)
    ensures r.Some? ==> IsInt32(r.value)
    ensures r.Some? ==> |digits| > 0
  {
    if |digits| == 0 || !AllDigits(digits) then None
    else
      var magnitude: int := DigitsValue(digits);
      var v := if negative then -magnitude else magnitude;
      if IsInt32(v) then Some(v) else None
  }

  /** `int.TryParse(s, out n)` with the default number style: optional white
      space around, an optional `+` or `-`, then one or more decimal digits
      whose signed value fits in an `int`; anything else fails. */
  function TryParse(s: string): (r: Option<int>)
    ensures r.Some? ==> IsInt32(r.value)
  {
    var signed := SplitSign(TrimEnd(TrimStart(s)));
    SignedValue(signed.0, signed.1)
  }

  /** The sign texts `int.TryParse` accepts: none, `+` or `-`. */
  predicate IsSign(sign: string) {
    sign == "" || sign == "+" || sign == "-"
  }

  /** The value a sign and a run of digits denote. */
  function SignedDigits(sign: string, digits: string): int
    requires AllDigits(digits)
  {
    if sign == "-" then -(DigitsValue(digits) as int) else DigitsValue(digits)
  }

  /** `s` is leading white space, an optional sign, one or more decimal
      digits and trailing white space, split at the given places. */
  predicate IntegerText(s: string, lead: string, sign: string, digits: string, trail: string) {
    && s == lead + sign + digits + trail
    && AllWhite(lead) && AllWhite(trail)
    && IsSign(sign)
    && |digits| > 0 && AllDigits(digits)
  }

  /** Leading white space before text that does not start with white space
      is exactly what TrimStart drops. */
  lemma {:induction false} TrimStartWhite(w: string, x: string)
    requires AllWhite(w)
    requires |x| > 0 ==> !IsWhite(x[0])
    ensures TrimStart(w + x) == x
    decreases |w|
  {
    if |w| == 0 {
      assert w + x == x;
    } else {
      assert (w + x)[1..] == w[1..] + x;
      TrimStartWhite(w[1..], x);
    }
  }

  /** Trailing white space after text that does not end in white space is
      exactly what TrimEnd drops. */
  lemma {:induction false} TrimEndWhite(x: string, w: string)
    requires AllWhite(w)
    requires |x| > 0 ==> !IsWhite(x[|x| - 1])
    ensures TrimEnd(x + w) == x
    decreases |w|
  {
    if |w| == 0 {
      assert x + w == x;
    } else {
      var s := x + w;
      assert s[..|s| - 1] == x + w[..|w| - 1];
      assert s[|s| - 1] == w[|w| - 1];
      TrimEndWhite(x, w[..|w| - 1]);
    }
  }

  /** Both trims together drop exactly the white space around a core that
      neither starts nor ends with white space. */
  lemma TrimAround(lead: string, core: string, trail: string)
    requires AllWhite(lead) && AllWhite(trail)
    requires |core| > 0 && !IsWhite(core[0]) && !IsWhite(core[|core| - 1])
    ensures TrimEnd(TrimStart(lead + core + trail)) == core
  {
    assert lead + core + trail == lead + (core + trail);
    assert (core + trail)[0] == core[0];
    TrimStartWhite(lead, core + trail);
    TrimEndWhite(core, trail);
  }

  /** A sign text in front of digits is read off as the sign. */
  lemma SplitSignDigits(sign: string, digits: string)
    requires IsSign(sign)
    requires |digits| > 0 && IsDigit(digits[0])
    ensures SplitSign(sign + digits) == (sign == "-", digits)
  {
    if sign == "" {
      assert sign + digits == digits;
    } else {
      assert (sign + digits)[1..] == digits;
    }
  }

  /** Every integer text parses, to its signed value when that fits in an
      `int` and to nothing when it does not. */
  lemma TryParseIntegerText(s: string, lead: string, sign: string, digits: string, trail: string)
    requires IntegerText(s, lead, sign, digits, trail)
    ensures TryParse(s) == if IsInt32(SignedDigits(sign, digits)) then Some(SignedDigits(sign, digits)) else None
  {
    var core := sign + digits;
    assert s == lead + core + trail;
    assert !IsWhite(core[0]) by {
      if sign == "" { assert core[0] == digits[0]; }
    }
    assert core[|core| - 1] == digits[|digits| - 1];
    TrimAround(lead, core, trail);
    SplitSignDigits(sign, digits);
  }

  /** TrimStart keeps a suffix and drops only white space before it. */
  lemma TrimStartParts(s: string)
    ensures var r := TrimStart(s);
      s == s[..|s| - |r|] + r && AllWhite(s[..|s| - |r|])
  {
    var r := TrimStart(s);
    var lead := s[..|s| - |r|];
    forall k | 0 <= k < |lead| ensures IsWhite(lead[k]) {
      assert lead[k] == s[k];
    }
    assert s == lead + s[|s| - |r|..];
  }

  /** TrimEnd keeps a prefix and drops only white space after it. */
  lemma TrimEndParts(s: string)
    ensures var r := TrimEnd(s);
      s == r + s[|r|..] && AllWhite(s[|r|..])
  {
    var r := TrimEnd(s);
    var trail := s[|r|..];
    forall k | 0 <= k < |trail| ensures IsWhite(trail[k]) {
      assert trail[k] == s[|r| + k];
    }
    assert s == s[..|r|] + trail;
  }

  /** What SplitSign leaves is the trimmed text after a sign text. */
  lemma SplitSignParts(t: string)
    ensures var r := SplitSign(t);
      var sign := t[..|t| - |r.1|];
      && t == sign + r.1
      && IsSign(sign)
      && (r.0 <==> sign == "-")
  {
    var r := SplitSign(t);
    if |r.1| < |t| {
      assert t[..|t| - |r.1|] == [t[0]];
    }
  }

  /** Concatenation nested to the right equals concatenation left to right. */
  lemma Regroup(a: string, b: string, c: string, d: string)
    ensures a + ((b + c) + d) == a + b + c + d
  {
    var x, y := a + ((b + c) + d), a + b + c + d;
    assert |x| == |y|;
    forall k | 0 <= k < |x| ensures x[k] == y[k] {
    }
  }

  /** The pieces TryParse cuts its input into: leading white space, the
      sign text, the rest of the trimmed text, trailing white space. */
  function ParseLead(s: string): string {
    s[..|s| - |TrimStart(s)|]
  }

  function ParseTrail(s: string): string {
    TrimStart(s)[|TrimEnd(TrimStart(s))|..]
  }

  function ParseDigits(s: string): string {
    SplitSign(TrimEnd(TrimStart(s))).1
  }

  function ParseSign(s: string): string {
    var t := TrimEnd(TrimStart(s));
    t[..|t| - |ParseDigits(s)|]
  }

  /** The four pieces make up the input. */
  lemma ParsePiecesConcat(s: string)
    ensures s == ParseLead(s) + ParseSign(s) + ParseDigits(s) + ParseTrail(s)
  {
    var t0 := TrimStart(s);
    var t := TrimEnd(t0);
    TrimStartParts(s);
    TrimEndParts(t0);
    SplitSignParts(t);
    assert s == ParseLead(s) + ((ParseSign(s) + ParseDigits(s)) + ParseTrail(s));
    Regroup(ParseLead(s), ParseSign(s), ParseDigits(s), ParseTrail(s));
  }

  /** The outer pieces are white space and the sign piece is a sign text
      that TryParse reads as the sign. */
  lemma ParsePiecesKinds(s: string)
    ensures AllWhite(ParseLead(s)) && AllWhite(ParseTrail(s))
    ensures IsSign(ParseSign(s))
    ensures SplitSign(TrimEnd(TrimStart(s))).0 <==> ParseSign(s) == "-"
  {
    TrimStartParts(s);
    TrimEndParts(TrimStart(s));
    SplitSignParts(TrimEnd(TrimStart(s)));
  }

  /** Text parses only if it is an integer text, and then to its signed value. */
  lemma TryParseOnlyIntegerText(s: string)
    requires TryParse(s).Some?
    ensures exists lead, sign, digits, trail ::
              IntegerText(s, lead, sign, digits, trail) && TryParse(s) == Some(SignedDigits(sign, digits))
  {
    var lead, sign, digits, trail := ParseLead(s), ParseSign(s), ParseDigits(s), ParseTrail(s);
    ParsePiecesConcat(s);
    ParsePiecesKinds(s);
    assert TryParse(s) == SignedValue(SplitSign(TrimEnd(TrimStart(s))).0, digits);
    assert IntegerText(s, lead, sign, digits, trail);
  }

  /** Text without a single decimal digit never parses. */
  lemma TryParseNeedsDigit(s: string)
    requires forall k :: 0 <= k < |s| ==> !IsDigit(s[k])
    ensures TryParse(s) == None
  {
    var digits := ParseDigits(s);
    assert TryParse(s) == SignedValue(SplitSign(TrimEnd(TrimStart(s))).0, digits);
    if |digits| > 0 {
      ParsePiecesConcat(s);
      assert digits[0] == s[|ParseLead(s)| + |ParseSign(s)|];
    }
  }

  /** Rendering has no white space, so both trims leave it alone. */
  lemma TrimShown(n: int)
    ensures TrimEnd(TrimStart(ShowInt(n))) == ShowInt(n)
  {
    var s := ShowInt(n);
    assert !IsWhite(s[0]);
    assert !IsWhite(s[|s| - 1]);
  }

  /** The sign of a rendering is read off as the number's sign, leaving
      the digits of its magnitude. */
  lemma SplitSignShown(n: int)
    ensures SplitSign(ShowInt(n)) == (n < 0, ShowNat(if n < 0 then -n else n))
  {
    if n < 0 {
      assert ShowInt(n)[1..] == ShowNat(-n);
    } else {
      assert IsDigit(ShowInt(n)[0]);
    }
  }

  /** The digits of a magnitude, with its sign, read back as the number. */
  lemma SignedValueShown(n: int)
    requires IsInt32(n)
    ensures SignedValue(n < 0, ShowNat(if n < 0 then -n else n)) == Some(n)
  {
    var m := if n < 0 then -n else n;
    var d := ShowNat(m);
    assert |d| > 0 && AllDigits(d) && DigitsValue(d) == m;
  }

  /** Parsing what `ShowInt` wrote gives back the number, for every `int`. */
  lemma TryParseShowInt(n: int)
    requires IsInt32(n)
    ensures TryParse(ShowInt(n)) == Some(n)
  {
    var m := if n < 0 then -n else n;
    TrimShown(n);
    SplitSignShown(n);
    assert SplitSign(TrimEnd(TrimStart(ShowInt(n)))) == (n < 0, ShowNat(m));
    SignedValueShown(n);
  }

  /** Rendering of the decimal form never contains the character `c` unless
      it is a digit or the minus sign. */
  lemma ShowIntAvoids(n: int, c: char)
    requires !IsDigit(c) && c != '-'
    ensures c !in ShowInt(n)
  {
    var s := ShowInt(n);
    forall k | 0 <= k < |s| ensures s[k] != c {
      if k == 0 && n < 0 {
        assert s[0] == '-';
      }
    }
  }
}

=== FILE: signifiers.dfy ===
/** Command identifiers a client sends as the first token of a message. */
module ClientServerSignifiers {
  const CreateAccount: int := 1
  const Login: int := 2
  const JoinQueue: int := 3
  const MakeMove: int := 4
  const ChosenAsPlayerOne: int := 6
  const ChosenAsPlayerTwo: int := 7
  const OpponentChoseASquare: int := 8
}

/** Identifiers the server puts at the head of its replies. */
module ServerClientSignifiers {
  const LoginComplete: int := 1
  const LoginFailed: int := 2
  const AccountCreated: int := 3
  const AccountCreationFailed: int := 4
  const StartGame: int := 5
  const ChosenAsPlayerOne: int := 6
  const ChosenAsPlayerTwo: int := 7
  const OpponentChoseASquare: int := 8
}

=== FILE: states.dfy ===
/** `StateManager`: a holder for one of three server states, starting in
    `WaitingForLogin`, with one setter per state and no guard on any of them. */
module States {

  datatype ServerState = WaitingForLogin | AccountCreation | LoggedIn

  /** The enum's underlying values, in declaration order. */
  function Ordinal(s: ServerState): (n: nat)
    ensures n < 3
  {
    match s
    case WaitingForLogin => 0
    case AccountCreation => 1
    case LoggedIn => 2
  }

  function FromOrdinal(n: nat): (s: ServerState)
    requires n < 3
    ensures Ordinal(s) == n
  {
    if n == 0 then WaitingForLogin else if n == 1 then AccountCreation else LoggedIn
  }

  /** The three states are exactly the values 0, 1 and 2: the numbering is
      a bijection. */
  lemma OrdinalBijection(s: ServerState, n: nat)
    requires n < 3
    ensures FromOrdinal(Ordinal(s)) == s
    ensures Ordinal(FromOrdinal(n)) == n
  {
  }

  /** The holder: its only field is the current state. */
  datatype StateManager = StateManager(currentState: ServerState)

  /** The held state; it is all a manager holds. */
  function GetState(m: StateManager): (s: ServerState)
    ensures m == StateManager(s)
  {
    m.currentState
  }

  function SetStateAccountCreation(m: StateManager): (r: StateManager)
    ensures GetState(r) == AccountCreation
  {
    StateManager(AccountCreation)
  }

  function SetStateLoggedIn(m: StateManager): (r: StateManager)
    ensures GetState(r) == LoggedIn
  {
    StateManager(LoggedIn)
  }

  function SetStateWaitingForLogin(m: StateManager): (r: StateManager)
    ensures GetState(r) == WaitingForLogin
  {
    StateManager(WaitingForLogin)
  }

  /** The constructor. */
  function New(): (m: StateManager)
    ensures GetState(m) == WaitingForLogin
  {
    StateManager(WaitingForLogin)
  }

  /** A call to one of the three setters. */
  datatype Setter = ToAccountCreation | ToLoggedIn | ToWaitingForLogin

  function Target(call: Setter): ServerState {
    match call
    case ToAccountCreation => AccountCreation
    case ToLoggedIn => LoggedIn
    case ToWaitingForLogin => WaitingForLogin
  }

  function Apply(m: StateManager, call: Setter): StateManager {
    match call
    case ToAccountCreation => SetStateAccountCreation(m)
    case ToLoggedIn => SetStateLoggedIn(m)
    case ToWaitingForLogin => SetStateWaitingForLogin(m)
  }

  /** The calls applied in order. */
  function Run(m: StateManager, calls: seq<Setter>): StateManager
    decreases |calls|
  {
    if |calls| == 0 then m else Run(Apply(m, calls[0]), calls[1..])
  }

  /** Every setter reaches its state from every state. */
  lemma SetterReachesTarget(m: StateManager, call: Setter)
    ensures GetState(Apply(m, call)) == Target(call)
  {
  }

  /** Calling a setter twice is the same as calling it once. */
  lemma SetterIdempotent(m: StateManager, call: Setter)
    ensures Apply(Apply(m, call), call) == Apply(m, call)
  {
  }

  /** After any sequence of setter calls the state is the one the last call
      named, or the state before the calls when there were none. */
  lemma {:induction false} RunLastWins(m: StateManager, calls: seq<Setter>)
    ensures GetState(Run(m, calls)) == if |calls| == 0 then GetState(m) else Target(calls[|calls| - 1])
    decreases |calls|
  {
    if |calls| > 0 {
      RunLastWins(Apply(m, calls[0]), calls[1..]);
      if |calls| > 1 {
        assert calls[1..][|calls| - 2] == calls[|calls| - 1];
      }
    }
  }

  /** From a fresh manager: `WaitingForLogin` until a setter is called, then
      the state of the most recent call. */
  lemma GetStateAfterCalls(calls: seq<Setter>)
    ensures GetState(Run(New(), calls)) == if |calls| == 0 then WaitingForLogin else Target(calls[|calls| - 1])
  {
    RunLastWins(New(), calls);
  }
}

=== FILE: text.dfy ===
/** String helpers with the semantics of the .NET calls the server relies on:
    `String.Split(char)` (no options) and joining tokens with one separator. */
module Text {

  /** Index of the first occurrence of `c` in `s`, or `|s|` when `c` does not occur. */
  function IndexOf(s: string, c: char): (i: nat)
    ensures i <= |s|
    ensures c !in s[..i]
    ensures i < |s| ==> s[i] == c
    decreases |s|
  {
    if |s| == 0 then 0
    else if s[0] == c then 0
    else
      var j := IndexOf(s[1..], c);
      assert s[..1 + j] == [s[0]] + s[1..][..j];
      1 + j
  }

  /** `s.Split(sep)`: the maximal runs between separators, empty runs included.
      Splitting the empty string yields one empty token, and a string with
      k separators yields k + 1 tokens. */
  function Split(s: string, sep: char): (parts: seq<string>)
    ensures |parts| == multiset(s)[sep] + 1
    ensures forall k :: 0 <= k < |parts| ==> sep !in parts[k]
    decreases |s|
  {
    var i := IndexOf(s, sep);
    if i == |s| then
      [s]
    else
      var rest := Split(s[i + 1..], sep);
      assert s == s[..i] + [s[i]] + s[i + 1..];
      assert multiset(s)[sep] == multiset(s[..i])[sep] + 1 + multiset(s[i + 1..])[sep];
      [s[..i]] + rest
  }

  /** The tokens of `parts`, in order, with `sep` between neighbours
      (`String.Join`); joining no tokens gives the empty string. */
  function Join(parts: seq<string>, sep: char): string
    decreases |parts|
  {
    if |parts| == 0 then ""
    else if |parts| == 1 then parts[0]
    else parts[0] + [sep] + Join(parts[1..], sep)
  }

  /** IndexOf stops at the first separator after a separator-free prefix. */
  lemma IndexOfAfterPrefix(a: string, sep: char, b: string)
    requires sep !in a
    ensures IndexOf(a + [sep] + b, sep) == |a|
  {
    var s := a + [sep] + b;
    assert s[|a|] == sep;
    assert s[..|a|] == a;
  }

  /** A string without the separator is a single token. */
  lemma SplitWithoutSeparator(a: string, sep: char)
    requires sep !in a
    ensures Split(a, sep) == [a]
  {
  }

  /** The first token of `a + [sep] + b` is `a`; the rest come from `b`. */
  lemma SplitAfterPrefix(a: string, sep: char, b: string)
    requires sep !in a
    ensures Split(a + [sep] + b, sep) == [a] + Split(b, sep)
  {
    var s := a + [sep] + b;
    IndexOfAfterPrefix(a, sep, b);
    assert s[..|a|] == a;
    assert s[|a| + 1..] == b;
  }

  /** Splitting a join recovers the tokens, provided none contains the separator. */
  lemma {:induction false} SplitJoin(parts: seq<string>, sep: char)
    requires |parts| >= 1
    requires forall k :: 0 <= k < |parts| ==> sep !in parts[k]
    ensures Split(Join(parts, sep), sep) == parts
    decreases |parts|
  {
    if |parts| == 1 {
      SplitWithoutSeparator(parts[0], sep);
    } else {
      SplitJoin(parts[1..], sep);
      SplitAfterPrefix(parts[0], sep, Join(parts[1..], sep));
      assert parts == [parts[0]] + parts[1..];
    }
  }

  /** Joining a leading token onto a non-empty list puts one separator
      between it and the join of the rest. */
  lemma JoinCons(a: string, ts: seq<string>, sep: char)
    requires |ts| >= 1
    ensures Join([a] + ts, sep) == a + [sep] + Join(ts, sep)
  {
    assert ([a] + ts)[1..] == ts;
  }

  /** Joining the tokens of a split with the same separator gives back the string. */
  lemma {:induction false} JoinSplit(s: string, sep: char)
    ensures Join(Split(s, sep), sep) == s
    decreases |s|
  {
    var i := IndexOf(s, sep);
    if i < |s| {
      var a, b := s[..i], s[i + 1..];
      assert s == a + [sep] + b;
      SplitAfterPrefix(a, sep, b);
      JoinSplit(b, sep);
      JoinCons(a, Split(b, sep), sep);
      assert Join(Split(s, sep), sep) == a + [sep] + b;
    } else {
      assert Split(s, sep) == [s];
    }
  }
}

=== FILE: wrappers.dfy ===
/** Optional value shared by the parsers of this model. */
module Wrappers {

  /** A value that may be missing: the model's stand-in for a `TryParse`
      that returned false or a `Find` that found nothing. */
  datatype Option<+T> = None | Some(value: T)
}
